=== FILE: README.md ===
# Astro API core in Dafny

A model of the core of the Astro NFT marketplace back end, with proofs about it.

**The block indexer.** It mirrors on-chain state into four relational tables: collections, ERC-721 tokens, ERC-1155 editions and edition balances.
- It runs one tick per block notification. A tick has three phases in a fixed order.
  1. CollectionCreated logs from the collection factory.
  2. ERC-721 `Transfer` logs of every ERC721 collection.
  3. ERC-1155 `TransferSingle` logs of every ERC1155 collection.
- The cursor (`lastProcessedBlock`) advances only when all three phases complete.

**The read services** turn table rows into API responses:
- NFT listings, lookup and collection preview.
- Collection listings and lookup.

**Sign-in with Ethereum.**
- `getNonce` stores a fresh nonce on the user of a wallet address.
- `login` checks the signed nonce against the stored one and rotates it.
- The JWT guard decides whether a request carries a user.

**Also modelled:**
- The users service behind sign-in and profile editing.
- The application configuration with its defaults.
- The request validators of the query and body DTOs.

## Structure

- `wrappers.dfy`: `Option` and `Result`.
- `text.dfy`: JavaScript string operations the code relies on:
  - `toLowerCase` and `trim`;
  - `split` and `join` on a separator;
  - `v || undefined`;
  - decimal rendering of token ids;
  - UTF-16 length.
- `ordering.dfy`: `findFirst`, filtering, and `findMany` ordered newest first, as a stable sort.
- `store.dfy`: the four indexer tables and their well-formedness (`Consistent`).
- `ledger.dfy`: the sum of a map's values (an edition's total balance).
- `reconcile.dfy`: what the indexer does, as pure functions:
  - the handlers;
  - the folds over logs and collections;
  - the three phases;
  - the tick.
- `reconcile_props.dfy`: the indexer's properties, as lemmas about those functions.
- `indexer.dfy`: the `IndexerService` class.
  - Its fields are the cursor and the tables, updated in place.
  - Each method is proved to do exactly what the matching function of `reconcile.dfy` does.
- `users.dfy`: the user table, the service's operations as functions, their lemmas, and the `UsersService` class proved against them.
- `auth.dfy`: nonce issue and login as functions, their lemmas, and the `AuthService` class.
- `guard.dfy`: the JWT guard's `handleRequest`.
- `config.dfy`: `appConfig` and the `AppConfigService` getters.
- `nfts.dfy` and `collections.dfy`: the read services.
- `dto.dfy`: the request validators.

## Model

| member | source | states |
|---|---|---|
| Indexer.IndexerService.constructor | src/indexer/indexer.service.ts:13 | The cursor starts unset (0), with empty, well-formed tables. |
| Indexer.IndexerService.OnCollectionCreated | src/indexer/indexer.service.ts:98-131 | The tables become `CreateCollection` of the old tables, with names read from the contract. The cursor is unchanged. |
| Indexer.IndexerService.OnTransfer | src/indexer/indexer.service.ts:155-194 | The tables and the error equal `Transfer721` of the old tables: a mint upserts, any other transfer updates a row that must exist. |
| Indexer.IndexerService.OnTransferSingle | src/indexer/indexer.service.ts:219-273 | The tables become `Transfer1155` of the old ones: upsert the edition, debit the sender's row, credit or create the recipient's row. |
| Indexer.IndexerService.HandleLog | src/indexer/indexer.service.ts:94-100 | One log is dispatched to its phase's handler. An unparsed log is skipped; a wrong event is an error. The result equals `Step`. |
| Indexer.IndexerService.ApplyLogs | src/indexer/indexer.service.ts:151-195 | The loop over one query's logs equals `RunLogs`: handled in order, stopping at the first that throws, earlier writes kept. |
| Indexer.IndexerService.FetchLogs | src/indexer/indexer.service.ts:144-149 | One `getLogs` call and its handling equal `FetchAndRun`. A failing call is an error that writes nothing. |
| Indexer.IndexerService.IndexCollectionCreated | src/indexer/indexer.service.ts:85-133 | Phase 1 equals `FetchAndRun` on the factory address and the CollectionCreated topic. |
| Indexer.IndexerService.IndexTransfers | src/indexer/indexer.service.ts:138-197 | The collections of one standard, listed once at the start, are searched one after another. The result equals `RunCollections`. |
| Indexer.IndexerService.IndexErc721Transfers | src/indexer/indexer.service.ts:138-197 | Phase 2 equals `RunCollections` over the ERC721 collections as listed when the phase starts. |
| Indexer.IndexerService.IndexErc1155Transfers | src/indexer/indexer.service.ts:202-276 | Phase 3 equals `RunCollections` over the ERC1155 collections as listed when the phase starts. |
| Indexer.IndexerService.OnBlock | src/indexer/indexer.service.ts:49-80 | The new cursor, tables and status equal `Tick` of the old state. A well-formed store stays well-formed. |
| ReconcileProps.CollectionUpsert | src/indexer/indexer.service.ts:119-131 | A known collection address is left untouched. A new one gets a row with lower-cased addresses, chain 31337, royalty 0, the event's standard and the read names, and is appended to the insertion order. |
| ReconcileProps.ContractNamesFallback | src/indexer/indexer.service.ts:104-117 | A failing `name()` gives both placeholders. A failing `symbol()` keeps the real name and gives "UNK". Otherwise both are read. |
| ReconcileProps.MintCreatesToken | src/indexer/indexer.service.ts:159-181 | A mint of a new token creates a row owned and created by the lower-cased recipient, with an empty metadata URI and chain 31337. Every other token row, and the collection, edition and balance tables, stay as they were. |
| ReconcileProps.MintIdempotent | src/indexer/indexer.service.ts:159-181 | Handling the same mint twice leaves the same tables as handling it once. |
| ReconcileProps.KnownTokenOwnerOnly | src/indexer/indexer.service.ts:159-194 | Any Transfer of a stored token, a mint included, succeeds and only sets that row's owner to the lower-cased `to`. Every other row of every table stays. |
| ReconcileProps.TransferMovesOwnerOnly | src/indexer/indexer.service.ts:182-194 | A non-mint transfer of a known token changes only its owner. For an unknown token it throws and writes nothing. |
| ReconcileProps.OwnerIsLastRecipient | src/indexer/indexer.service.ts:159-194 | After any Transfer that succeeds, the token's owner is that transfer's `to`, lower-cased. |
| ReconcileProps.EditionRowFixedAtFirstSight | src/indexer/indexer.service.ts:224-244 | The edition row is created on first sight: its creator is the recipient of a mint, or else the sender, and its supply is 0. An existing edition row is never changed. |
| ReconcileProps.BalancesOfUpdate | src/indexer/indexer.service.ts:246-273 | Writing one balance row changes the balances of its own edition by exactly that row. |
| ReconcileProps.TotalAfterSet | src/indexer/indexer.service.ts:246-273 | Setting a balance row changes its edition's total by the difference. |
| ReconcileProps.DebitTotal | src/indexer/indexer.service.ts:246-256 | A decrement lowers the edition's total by the amount when the row exists. Otherwise the total is unchanged. |
| ReconcileProps.CreditTotal | src/indexer/indexer.service.ts:258-273 | An increment-or-create raises the edition's total by exactly the amount. |
| ReconcileProps.TransferSingleTotal | src/indexer/indexer.service.ts:219-273 | One TransferSingle keeps the edition's total when the sender has a row. It raises the total by the amount for a mint, and also when the sender has no row. |
| ReconcileProps.TransferSingleMovesBalance | src/indexer/indexer.service.ts:246-273 | With distinct owners and the sender's row present, the amount moves from the sender's row to the recipient's row. No other balance row changes. |
| ReconcileProps.TransferSingleReplayCreditsTwice | src/indexer/indexer.service.ts:258-273 | Handling the same TransferSingle twice credits the recipient twice. |
| ReconcileProps.TransferSingleCredits | src/indexer/indexer.service.ts:258-273 | When the sender is someone else, the recipient's row gains the amount (or is created with it). |
| ReconcileProps.BurnCreditsZeroAddress | src/indexer/indexer.service.ts:258-273 | A transfer to the zero address credits a balance row owned by the zero address. |
| ReconcileProps.Parsed | src/indexer/indexer.service.ts:95-96 | The parsed logs keep their order, and every one of them parsed. |
| ReconcileProps.UnparsedLogsSkipped | src/indexer/indexer.service.ts:94-96 | A batch runs exactly as if its unparsable logs were not there. |
| ReconcileProps.RunLogsStops | src/indexer/indexer.service.ts:151-195 | Once a log throws, the rest of the batch changes nothing. |
| ReconcileProps.RunCollectionsStops | src/indexer/indexer.service.ts:143-196 | Once one collection's batch throws, the remaining collections are not searched. |
| ReconcileProps.FactoryKeepsRows | src/indexer/indexer.service.ts:119-131 | The factory phase never changes a collection row that is already stored, and touches no other table. |
| ReconcileProps.FactoryOnlyCreatesNamed | src/indexer/indexer.service.ts:94-132 | A collection that no log of the batch creates stays absent. |
| ReconcileProps.FirstCreationDecides | src/indexer/indexer.service.ts:94-132 | When the factory phase completes, a new collection is stored with the standard of the first log that creates it. |
| ReconcileProps.TokenLogsKeepCollections | src/indexer/indexer.service.ts:151-195 | A token batch never touches the collection table. |
| ReconcileProps.TokenPhaseKeepsCollections | src/indexer/indexer.service.ts:138-276 | Phases 2 and 3 never touch the collection table. |
| ReconcileProps.CreateCollectionConsistent | src/indexer/indexer.service.ts:119-131 | Creating a collection keeps the store well-formed: keys listed once, rows under their own keys, parents present, lower-case addresses. |
| ReconcileProps.PutNftConsistent | src/indexer/indexer.service.ts:160-181 | Writing a token row under a stored collection, with lower-case addresses, keeps the store well-formed. |
| ReconcileProps.PutEditionConsistent | src/indexer/indexer.service.ts:224-244 | Writing an edition row under a stored collection keeps the store well-formed. |
| ReconcileProps.PutBalanceConsistent | src/indexer/indexer.service.ts:258-273 | Writing a balance row of a stored edition, for a lower-case owner, keeps the store well-formed. |
| Reconcile.Transfer721 | src/indexer/indexer.service.ts:159-194 | A Transfer writes only token rows. The collection table and its order stay as they were. |
| Reconcile.Transfer1155 | src/indexer/indexer.service.ts:224-273 | A TransferSingle writes only edition and balance rows. The collection table and its order stay as they were. |
| ReconcileProps.UpsertEditionConsistent | src/indexer/indexer.service.ts:224-244 | The edition upsert keeps the store well-formed, and the edition exists afterwards. |
| ReconcileProps.DebitConsistent | src/indexer/indexer.service.ts:246-256 | Decrementing the sender's balance row, if it exists, keeps the store well-formed. |
| ReconcileProps.CreditConsistent | src/indexer/indexer.service.ts:258-273 | Incrementing or creating the recipient's row of a stored edition keeps the store well-formed. |
| ReconcileProps.Transfer721Consistent | src/indexer/indexer.service.ts:159-194 | A Transfer keeps the store well-formed. The token row it writes connects to its collection. |
| ReconcileProps.Transfer1155Consistent | src/indexer/indexer.service.ts:224-273 | A TransferSingle keeps the store well-formed. The edition and balance rows it writes have their parents. |
| ReconcileProps.StepConsistent | src/indexer/indexer.service.ts:94-100 | One log on a stored collection keeps the store well-formed. |
| ReconcileProps.RunLogsConsistent | src/indexer/indexer.service.ts:151-195 | A batch of logs keeps the store well-formed. |
| ReconcileProps.FetchAndRunConsistent | src/indexer/indexer.service.ts:144-149 | A query and its handling keep the store well-formed. |
| ReconcileProps.RunCollectionsConsistent | src/indexer/indexer.service.ts:143-196 | A walk over stored collections keeps the store well-formed. |
| ReconcileProps.PhasesConsistent | src/indexer/indexer.service.ts:57-70 | The three phases keep the store well-formed. |
| ReconcileProps.TickConsistent | src/indexer/indexer.service.ts:49-80 | Every tick keeps the store well-formed, whether it bootstraps, completes or throws. |
| ReconcileProps.NewCollectionReachesItsPhase | src/indexer/indexer.service.ts:57-70 | Once phase 1 completes, a collection it created is in the list walked by the phase of its standard. |
| ReconcileProps.BootstrapTick | src/indexer/indexer.service.ts:52-55 | With the cursor unset, a tick sets it to `b - 1` and changes nothing else. After block 1 the cursor is still 0, so the next tick bootstraps again. |
| ReconcileProps.CursorAdvancesOnlyOnSuccess | src/indexer/indexer.service.ts:57-78 | A running tick moves the cursor to `b` exactly when all phases complete. Otherwise the cursor stays, and the writes made before the throw remain. |
| ReconcileProps.NextRange | src/indexer/indexer.service.ts:57-72 | After a successful tick the next range starts at `b + 1`. After a failed tick it starts where the failed one did. |
| ReconcileProps.CursorDisciplineExample | src/indexer/indexer.service.ts:49-80 | Blocks 10, 11 and 12 arrive. The first tick sets the cursor to 9 and the second works on [10, 11]. After a success the cursor is 11 and the third tick works on [12, 12]. After a throw the cursor stays 9 and the third works on [10, 12]. |
| Store.EmptyConsistent | src/indexer/indexer.service.ts:119-131 | Empty tables are well-formed. |
| Store.ListedExactly | src/indexer/indexer.service.ts:139-141 | In a well-formed store, the collection listing names exactly the collections of that standard. |
| Store.ListedFromComplete | src/indexer/indexer.service.ts:203-205 | Every collection of the standard in the insertion order is listed. |
| Ledger.SumUpdate | src/indexer/indexer.service.ts:246-273 | Overwriting one entry changes a map's sum by the difference. |
| Text.DecimalRoundTrip | src/indexer/indexer.service.ts:157 | The decimal text of a token id parses back to the id. |
| Text.DecimalInjective | src/indexer/indexer.service.ts:221 | Distinct ids render to distinct token id texts, so distinct tokens get distinct keys. |
| Users.ByAddress | src/modules/users/users.service.ts:13-19 | The found row, if any, is stored under the lower-cased address. |
| Users.ByAddressIgnoresCase | src/modules/users/users.service.ts:13-19 | Addresses equal up to letter case find the same row. |
| Users.ByAddressFindsRow | src/modules/users/users.service.ts:13-19 | In a valid table, a row's own address finds that row. |
| Users.DefaultUsername | src/modules/users/users.service.ts:32 | The default username is the first eight characters of the address, or all of it when shorter. |
| Users.UpsertedEffect | src/modules/users/users.service.ts:24-38 | For a known address only that user's nonce changes. A new address appends a user with the lower-cased address, the nonce, the default username, the default role and the next id. |
| Users.UpsertedThenFound | src/modules/users/users.service.ts:24-38 | After the upsert, the address finds a user holding the new nonce. |
| Users.UpsertedValid | src/modules/users/users.service.ts:24-38 | The upsert keeps ids distinct and addresses unique. |
| Users.NonceUpdatedEffect | src/modules/users/users.service.ts:41-46 | A present id has only its nonce replaced. An absent id fails with the store's not-found error. |
| Users.NonceUpdatedThenFound | src/modules/users/users.service.ts:41-46 | After rotating a found user's nonce, the address finds the rotated row. |
| Users.IdIndexFindsRow | src/modules/users/users.service.ts:51-55 | In a valid table, a row's own id finds that row. |
| Users.ById | src/modules/users/users.service.ts:51-55 | The result is the user with that id, or NotFound("User not found"). |
| Users.ProfileUpdatedEffect | src/modules/users/users.service.ts:58-73 | The update conflicts exactly when a non-empty username is asked for and its first holder is another user. Otherwise an existing user gets the given fields and keeps the rest. That user's row is rewritten in place; the other rows and the id counter stay, and the table stays valid. A missing user is the store's not-found error. |
| Users.ProfileUpdatedInPlace | src/modules/users/users.service.ts:69-72 | A successful update writes the patched user at its own row and leaves every other row and the id counter as they were. |
| Users.UsernameTakenExactly | src/modules/users/users.service.ts:60-67 | The username check refuses exactly a non-empty name whose first holder in storage order is another user. |
| Users.KeepOwnUsername | src/modules/users/users.service.ts:60-67 | Asking for one's own username passes when no earlier user holds it. |
| Users.ProfileUpdatedKeepsUsernamesDistinct | src/modules/users/users.service.ts:58-73 | Usernames that were distinct before a successful update stay distinct after it. |
| Users.DefaultUsernameShared | src/modules/users/users.service.ts:32 | Two new addresses sharing their first 8 characters get the same default username. The second user is then refused that username. |
| Users.UsersService.constructor | src/modules/users/users.service.ts:8 | The service starts on an empty, valid table. |
| Users.UsersService.FindByAddress | src/modules/users/users.service.ts:13-19 | Returns `ByAddress` of the current table and changes nothing. |
| Users.UsersService.UpsertNonce | src/modules/users/users.service.ts:24-38 | The table and the returned user become `Upserted` of the old table. Validity is kept. |
| Users.UsersService.UpdateNonce | src/modules/users/users.service.ts:41-46 | The table becomes `NonceUpdated` of the old table; on an error it is unchanged. |
| Users.UsersService.FindById | src/modules/users/users.service.ts:51-55 | Returns `ById` of the current table and changes nothing. |
| Users.UsersService.UpdateProfile | src/modules/users/users.service.ts:58-73 | The table becomes `ProfileUpdated` of the old table, which `ProfileUpdatedEffect` describes row by row. On an error it is unchanged. |
| Auth.NonceIssuedEffect | src/modules/auth/auth.service.ts:28-45 | A missing or empty address is BadRequest("Wallet address is required"). Any other address ends with its user holding the returned nonce, and the table stays valid. |
| Auth.LoginOnlyUnauthorized | src/modules/auth/auth.service.ts:120-129 | Every login failure is Unauthorized. |
| Auth.LoginEffect | src/modules/auth/auth.service.ts:62-130 | Login succeeds exactly when the signature checks out and the signer's user holds a non-empty nonce equal to the signed one. It then rotates that user's nonce. Every other row and the id counter stay as they were. It returns the payload (id, stored address) and the user's details. |
| Auth.ReplayRejected | src/modules/auth/auth.service.ts:86-95 | A signed message that logged in once is rejected with the nonce-mismatch message the second time. |
| Auth.IssuedNonceLogsIn | src/modules/auth/auth.service.ts:28-45 | A message signed by the address (any letter case) over the nonce just issued logs in. |
| Auth.AuthService.constructor | src/modules/auth/auth.service.ts:11-14 | The service holds the users service it is given. |
| Auth.AuthService.GetNonce | src/modules/auth/auth.service.ts:28-45 | The answer and the user table equal `NonceIssued`. On an error the table is unchanged. |
| Auth.AuthService.Login | src/modules/auth/auth.service.ts:62-130 | The answer and the user table equal `LoggedIn`. On an error the table is unchanged. |
| JwtGuard.HandleRequestDecision | src/modules/auth/guards/jwt-auth.guard.ts:24-36 | A request passes exactly when there is no error and a user, and the user is passed unchanged. Refusals name an expired token, an invalid token, or ask for a login, by the info's name. |
| AppConfig.Defaults | src/config/app.config.ts:15-81 | The getters' defaults apply to unset values, and the registered defaults apply to an empty environment. An empty NODE_ENV means development. |
| AppConfig.EnvironmentsExclusive | src/config/app.config.ts:43-53 | Development and production never hold at once. Unset means development. |
| AppConfig.TrimKeepsOut | src/config/app.config.ts:68 | Trimming adds no character. |
| AppConfig.CorsOriginPieces | src/config/app.config.ts:63-72 | A value with commas gives one trimmed origin per piece, one more than the commas, none holding a comma, and the pieces rejoin to the value. A value without a comma gives that value trimmed. |
| AppConfig.CorsOriginDefault | src/config/app.config.ts:63-72 | With neither the setting nor the variable, the origin is the local front end. |
| AppConfig.RegisteredCorsOriginDefault | src/config/app.config.ts:19 | An unset or empty CORS_ORIGIN gives the local front end. |
| Text.LowerIdempotent | src/modules/auth/auth.service.ts:34 | Lower-casing twice is lower-casing once. |
| Ordering.SelectExactly | src/modules/nfts/nfts.service.ts:18-35 | A newest-first `findMany` holds each matching row as often as the table does, newest first, and no other row. |
| Nfts.ToDtoFields | src/modules/nfts/nfts.service.ts:37-46 | The response copies address, token id, owner, raw image URL and creation time. It leaves out a null or empty name, description, image or metadata URI. |
| Ordering.SelectMapExactly | src/modules/nfts/nfts.service.ts:18-46 | A newest-first `findMany` mapped to responses has one response per matching row, in the query's order. Every matching row's response is there, and every response is that of a matching row. The collection listings (collections.service.ts:17-40) are the same query. |
| Nfts.FindByCollectionExactly | src/modules/nfts/nfts.service.ts:15-47 | One response per token of the lower-cased collection address, each the response of such a token and no other, newest first. |
| Nfts.FindByOwnerExactly | src/modules/nfts/nfts.service.ts:54-86 | One response per token owned by the lower-cased owner address, each the response of such a token and no other, newest first. |
| Ordering.FilterAll | src/modules/nfts/nfts.service.ts:92-107 | A query without `where` selects every row. The collection listing at collections.service.ts:47-59 is the same. |
| Nfts.FindAllExactly | src/modules/nfts/nfts.service.ts:92-119 | One response per row, each the response of a stored token, newest first. |
| Nfts.FindOneEffect | src/modules/nfts/nfts.service.ts:127-160 | A token is found exactly when one is stored under the lower-cased address and the id as given. Otherwise NotFound names the address as passed in. |
| Nfts.CollectionPreviewEffect | src/modules/nfts/nfts.service.ts:167-205 | The count covers every token of the lower-cased address. The preview shows the image URLs of the newest three tokens with an image, or all of them when fewer have one. None is null, and there are never more than the count. |
| Collections.ToDtoFields | src/modules/collections/collections.service.ts:33-40 | Address, standard and creation time are copied. A null or empty name or symbol is left out. |
| Collections.FindByCreatorExactly | src/modules/collections/collections.service.ts:14-41 | One response per collection of the lower-cased creator, each the response of such a collection and no other, newest first. |
| Collections.FindAllExactly | src/modules/collections/collections.service.ts:47-69 | One response per row, each the response of a stored collection, newest first. |
| Collections.FindByAddressEffect | src/modules/collections/collections.service.ts:76-99 | A collection is found exactly when one is stored under the lower-cased address. Otherwise NotFound names the address as passed in. |
| Collections.FindByAddressIgnoresCase | src/modules/collections/collections.service.ts:76-99 | Addresses equal up to letter case give the same answer. |
| Validation.AddressParamEffect | src/modules/nfts/dto/get-nfts-query.dto.ts:8-15 | An address filter passes exactly when it is missing, or its lower-case form is `0x` and 40 hex digits. What passes is lower case. The empty string is rejected with the property's message. |
| Validation.UpperPrefixAccepted | src/modules/collections/dto/get-collections-query.dto.ts:8-14 | A hex address with `0x` or `0X` in front passes, lower-cased. |
| Validation.NftsQueryEffect | src/modules/nfts/dto/get-nfts-query.dto.ts:7-24 | The NFT query passes exactly when both filters pass. Otherwise the error holds the message of each failing filter and no other. |
| Validation.UsernameAccepted | src/modules/users/dto/update-user.dto.ts:4-8 | A username passes exactly when it is 3 to 20 letters, digits and underscores. |
| Validation.UpdateUserEffect | src/modules/users/dto/update-user.dto.ts:3-18 | The body passes exactly when each present property meets its constraints. Absent keeps, `null` clears, a string sets. An empty body changes nothing, and a passing body never sets the empty username. |
| Validation.LoginBodyEffect | src/modules/auth/dto/auth.dto.ts:6-14 | The login body passes exactly when message and signature are both non-empty strings. |

## Left out

- **The blockchain node** is the `Node` parameter:
  - the RPC provider and its `block` subscription;
  - event topic hashes;
  - ABI decoding;
  - the contract `name()` and `symbol()` calls.
  A log is what the decoder makes of it: an event, or nothing when its topic is unknown, the `!parsed` case that is skipped.
  A log whose data fails to decode makes the decoder throw, which aborts the tick. The model has no separate case for this; an event of the wrong kind for the phase stands for it, with the same outcome (`UnexpectedEvent`, tick abandoned).
  `UnparsedLogsSkipped` covers only the `!parsed` branch.
- **The type argument of CollectionCreated** is assumed to reach the handler as the standard's name, the text "ERC721" or "ERC1155", which is stored as the collection's standard. The factory's ABI is not part of this model. If the argument decodes to a number instead, no listing would find the collection, or the write would fail. `NewCollectionReachesItsPhase` and `FirstCreationDecides` depend on this assumption.
- **Overlapping ticks** are not modelled. The source's asynchronous block handler can run two ticks at once; the model runs them one after another.
- **Factory address:** `COLLECTION_FACTORY_ADDRESS` is read once, as the service's `factoryAddress`.
- **Amounts:** `Number(value)` rounds amounts above 2^53. The model keeps exact integers.
- **The database (Prisma)** is modelled as tables:
  - Collection rows are kept in insertion order. A `findMany` without `orderBy` is taken to return rows in that order.
  - Rows with equal `createdAt` under `orderBy: { createdAt: 'desc' }` are taken in storage order. The database leaves this order unspecified.
  - `findFirst` without `orderBy` (the username check in `updateProfile`) is taken to return the first matching row in storage order. The database leaves this unspecified too.
  - An edition's surrogate id is replaced by its (contract, token id) key.
  - Timestamps are a `now` parameter.
- **User ids** are natural numbers from a counter, not UUIDs.
- **Schema defaults and constraints:**
  - The default role comes from the schema, which is not part of this model, so it is a parameter.
  - A uniqueness constraint on usernames is not modelled; there is only the service's own check.
- **Sign-in:** the SIWE library's message parsing and signature check are one input, the verified fields. Nonce generation and JWT signing (secret, expiry) are inputs too.
- **Text:**
  - `toLowerCase` is modelled for ASCII letters only.
  - `slice(0, 8)` counts characters, not UTF-16 code units.
- **Configuration:**
  - `parseInt` of PORT is a parameter.
  - The `databaseConfig` fields other than `url` are not modelled.
- **Validation:**
  - URL syntax (`isUrl`) is a parameter.
  - Whitelisting and rejection of unknown properties are not modelled.
  - Query parameters repeated into arrays are not modelled.
  - JSON objects and arrays in a body are not modelled.
  - The order of the messages in a 400 answer is not modelled: the model gives them as a set.
- **Out of scope:** controllers, the JWT strategy, uploads, health checks, logging, interceptors and the exception filter.

=== FILE: auth.dfy ===
/**
 * Sign-in with Ethereum: a nonce is issued per wallet address and stored on
 * its user; a login presents a signed message carrying that nonce, and on
 * success the stored nonce is replaced so that the same message cannot be
 * used twice. Message parsing and signature checking are one input
 * (`verified`: the message's fields when the signature checks out), and the
 * random nonces are inputs too.
 */
module Auth {
  import opened Wrappers
  import opened Text
  import opened Users

  datatype AuthError = BadRequest(message: string) | Unauthorized(message: string)

  /** The address and nonce of a SIWE message whose signature checked out. */
  datatype SiweFields = SiweFields(address: string, nonce: string)

  /** What the access token is signed over (signing and expiry are not modelled). */
  datatype JwtPayload = JwtPayload(sub: UserId, walletAddress: string)

  datatype UserInfo = UserInfo(id: UserId, walletAddress: string, username: Option<string>, role: string, createdAt: nat)

  datatype LoginResponse = LoginResponse(accessToken: JwtPayload, user: UserInfo)

  const AddressRequired := "Wallet address is required"
  const UserMissing := "User not found. Please request a nonce first."
  const NonceMissing := "No nonce found. Please request a nonce first."
  const NonceMismatch := "Invalid or expired nonce. Please request a new nonce."
  const SignatureFailed := "Signature verification failed. Please try again."

  /** `getNonce`: store the fresh `nonce` on the user of the address and hand it out. */
  function NonceIssued(t: Table, walletAddress: Option<string>, nonce: string, role: string, now: nat)
    : Result<(Table, string), AuthError>
  {
    if walletAddress.None? || walletAddress.value == "" then Err(BadRequest(AddressRequired))
    else Ok((Upserted(t, Lower(walletAddress.value), nonce, role, now).0, nonce))
  }

  /**
   * `login`: find the user of the signed address, compare the stored nonce
   * with the signed one, rotate the nonce to `newNonce`, and answer with
   * the token payload and the user's details.
   */
  function LoggedIn(t: Table, verified: Option<SiweFields>, newNonce: string): Result<(Table, LoginResponse), AuthError> {
    match verified
    case None => Err(Unauthorized(SignatureFailed))
    case Some(fields) =>
      match ByAddress(t, Lower(fields.address))
      case None => Err(Unauthorized(UserMissing))
      case Some(user) =>
        if user.nonce.None? || user.nonce.value == "" then Err(Unauthorized(NonceMissing))
        else if user.nonce.value != fields.nonce then Err(Unauthorized(NonceMismatch))
        else
          match NonceUpdated(t, user.id, newNonce)
          case Err(_) => Err(Unauthorized(SignatureFailed))
          case Ok((t', _)) =>
            var info := UserInfo(user.id, user.walletAddress, user.username, user.role, user.createdAt);
            Ok((t', LoginResponse(JwtPayload(user.id, user.walletAddress), info)))
  }

  // ---------------------------------------------------------------------------
  // Properties
  // ---------------------------------------------------------------------------

  /**
   * A missing or empty address is a BadRequest and writes nothing; any
   * other address ends with its user holding the nonce that is returned.
   */
  lemma {:induction false} NonceIssuedEffect(t: Table, walletAddress: Option<string>, nonce: string, role: string, now: nat)
    ensures var r := NonceIssued(t, walletAddress, nonce, role, now);
      && (r.Err? <==> walletAddress.None? || walletAddress.value == "")
      && (r.Err? ==> r.error == BadRequest(AddressRequired))
      && (r.Ok? ==>
            && r.value.1 == nonce
            && ByAddress(r.value.0, walletAddress.value).Some?
            && ByAddress(r.value.0, walletAddress.value).value.nonce == Some(nonce))
    ensures Valid(t) && NonceIssued(t, walletAddress, nonce, role, now).Ok? ==>
      Valid(NonceIssued(t, walletAddress, nonce, role, now).value.0)
  {
    if walletAddress.Some? && walletAddress.value != "" {
      var a := walletAddress.value;
      UpsertedThenFound(t, Lower(a), nonce, role, now);
      var t' := Upserted(t, Lower(a), nonce, role, now).0;
      ByAddressIgnoresCase(t', a, a);
      if Valid(t) {
        UpsertedValid(t, Lower(a), nonce, role, now);
      }
    }
  }

  /** `login` only ever fails with Unauthorized. */
  lemma LoginOnlyUnauthorized(t: Table, verified: Option<SiweFields>, newNonce: string)
    ensures LoggedIn(t, verified, newNonce).Err? ==> LoggedIn(t, verified, newNonce).error.Unauthorized?
  {
  }

  /**
   * `login` succeeds exactly when the signature checks out, a user exists
   * for the signed address and holds a non-empty nonce equal to the signed
   * one. It then rotates that user's nonce, leaves every other row and the
   * id counter as they were, and returns a token for the user's id and
   * stored address with the user's details.
   */
  lemma {:induction false} LoginEffect(t: Table, verified: Option<SiweFields>, newNonce: string)
    requires Valid(t)
    ensures var r := LoggedIn(t, verified, newNonce);
      && (r.Ok? <==>
            && verified.Some?
            && ByAddress(t, verified.value.address).Some?
            && ByAddress(t, verified.value.address).value.nonce.Some?
            && ByAddress(t, verified.value.address).value.nonce.value != ""
            && ByAddress(t, verified.value.address).value.nonce.value == verified.value.nonce)
      && (r.Ok? ==>
            var u := ByAddress(t, verified.value.address).value;
            && r.value.1.accessToken == JwtPayload(u.id, u.walletAddress)
            && r.value.1.user == UserInfo(u.id, u.walletAddress, u.username, u.role, u.createdAt)
            && ByAddress(r.value.0, verified.value.address) == Some(u.(nonce := Some(newNonce)))
            && r.value.0.nextId == t.nextId && |r.value.0.rows| == |t.rows|
            && (forall k :: 0 <= k < |t.rows| ==>
                  r.value.0.rows[k] == if t.rows[k].id == u.id then u.(nonce := Some(newNonce)) else t.rows[k])
            && Valid(r.value.0))
  {
    if verified.Some? {
      var a := verified.value.address;
      ByAddressIgnoresCase(t, a, a);
      if ByAddress(t, a).Some? {
        var u := ByAddress(t, a).value;
        var i := AddressIndex(t.rows, a).value;
        IdIndexFindsRow(t, i);
        assert ById(t, u.id) == Ok(u);
        NonceUpdatedEffect(t, u.id, newNonce);
        NonceUpdatedThenFound(t, a, newNonce);
      }
    }
  }

  /**
   * A signed message that has logged in once cannot log in again: the
   * stored nonce has been replaced by a different, non-empty one.
   */
  lemma {:induction false} ReplayRejected(t: Table, fields: SiweFields, newNonce: string, later: string)
    requires Valid(t)
    requires newNonce != fields.nonce && newNonce != ""
    requires LoggedIn(t, Some(fields), newNonce).Ok?
    ensures LoggedIn(LoggedIn(t, Some(fields), newNonce).value.0, Some(fields), later)
         == Err(Unauthorized(NonceMismatch))
  {
    LoginEffect(t, Some(fields), newNonce);
    var t' := LoggedIn(t, Some(fields), newNonce).value.0;
    ByAddressIgnoresCase(t', fields.address, fields.address);
  }

  /**
   * The nonce issued for an address lets a message signed by that address
   * (in any letter case) over that nonce log in.
   */
  lemma {:induction false} IssuedNonceLogsIn(t: Table, address: string, nonce: string, role: string, now: nat,
                                             signer: string, newNonce: string)
    requires Valid(t) && address != "" && nonce != ""
    requires Lower(signer) == Lower(address)
    ensures var t' := NonceIssued(t, Some(address), nonce, role, now).value.0;
      LoggedIn(t', Some(SiweFields(signer, nonce)), newNonce).Ok?
  {
    NonceIssuedEffect(t, Some(address), nonce, role, now);
    var t' := NonceIssued(t, Some(address), nonce, role, now).value.0;
    ByAddressIgnoresCase(t', signer, address);
    LoginEffect(t', Some(SiweFields(signer, nonce)), newNonce);
  }

  // ---------------------------------------------------------------------------
  // The service
  // ---------------------------------------------------------------------------

  class AuthService {
    const usersService: UsersService

    constructor(users: UsersService)
      ensures usersService == users
    {
      usersService := users;
    }

    method GetNonce(walletAddress: Option<string>, nonce: string, now: nat) returns (r: Result<string, AuthError>)
      requires Valid(usersService.Snapshot())
      modifies usersService
      ensures var e := NonceIssued(old(usersService.Snapshot()), walletAddress, nonce, usersService.defaultRole, now);
        && (e.Ok? ==> r == Ok(e.value.1) && usersService.Snapshot() == e.value.0)
        && (e.Err? ==> r == Err(e.error) && usersService.Snapshot() == old(usersService.Snapshot()))
      ensures Valid(usersService.Snapshot())
    {
      if walletAddress.None? || walletAddress.value == "" {
        return Err(BadRequest(AddressRequired));
      }
      var normalizedAddress := Lower(walletAddress.value);
      var _ := usersService.UpsertNonce(normalizedAddress, nonce, now);
      r := Ok(nonce);
    }

    method Login(verified: Option<SiweFields>, newNonce: string) returns (r: Result<LoginResponse, AuthError>)
      requires Valid(usersService.Snapshot())
      modifies usersService
      ensures var e := LoggedIn(old(usersService.Snapshot()), verified, newNonce);
        && (e.Ok? ==> r == Ok(e.value.1) && usersService.Snapshot() == e.value.0)
        && (e.Err? ==> r == Err(e.error) && usersService.Snapshot() == old(usersService.Snapshot()))
      ensures Valid(usersService.Snapshot())
    {
      if verified.None? {
        return Err(Unauthorized(SignatureFailed));
      }
      var fields := verified.value;
      var normalizedAddress := Lower(fields.address);
      var found := usersService.FindByAddress(normalizedAddress);
      if found.None? {
        return Err(Unauthorized(UserMissing));
      }
      var user := found.value;
      if user.nonce.None? || user.nonce.value == "" {
        return Err(Unauthorized(NonceMissing));
      }
      if user.nonce.value != fields.nonce {
        return Err(Unauthorized(NonceMismatch));
      }
      var updated := usersService.UpdateNonce(user.id, newNonce);
      if updated.Err? {
        return Err(Unauthorized(SignatureFailed));
      }
      var payload := JwtPayload(user.id, user.walletAddress);
      var info := UserInfo(user.id, user.walletAddress, user.username, user.role, user.createdAt);
      r := Ok(LoginResponse(payload, info));
    }
  }
}

=== FILE: collections.dfy ===
/**
 * The read side of the collection table: the listing by creator, the full
 * listing and the lookup of one collection. The table is the sequence of
 * its rows in storage order, which decides the order among rows created
 * at the same time.
 */
module Collections {
  import opened Wrappers
  import opened Text
  import opened Store
  import opened Ordering

  /** The response for one collection: address, standard, creation time, and a non-empty name and symbol. */
  datatype CollectionDto = CollectionDto(
    contractAddress: string,
    standard: string,
    createdAt: nat,
    name: Option<string>,
    symbol: Option<string>)

  function ToDto(c: Collection): CollectionDto {
    CollectionDto(c.contractAddress, c.standard, c.createdAt, OrUndefined(c.name), OrUndefined(c.symbol))
  }

  function CreatedAt(c: Collection): int { c.createdAt }

  function FindByCreator(rows: seq<Collection>, creatorAddress: string): seq<CollectionDto> {
    SelectMap(rows, (c: Collection) => c.creatorAddress == Lower(creatorAddress), CreatedAt, ToDto)
  }

  function FindAll(rows: seq<Collection>): seq<CollectionDto> {
    SelectMap(rows, (c: Collection) => true, CreatedAt, ToDto)
  }

  /** `findByAddress`: the collection under the lower-cased address, or NotFound. */
  function FindByAddress(rows: seq<Collection>, address: string): Result<CollectionDto, string> {
    match FirstIndex(rows, (c: Collection) => c.contractAddress == Lower(address))
    case None => Err("Collection with address " + address + " not found")
    case Some(i) => Ok(ToDto(rows[i]))
  }

  // ---------------------------------------------------------------------------
  // Properties
  // ---------------------------------------------------------------------------

  /** Address, standard and creation time are copied; a null or empty name or symbol is left out. */
  lemma ToDtoFields(c: Collection)
    ensures var d := ToDto(c);
      && d.contractAddress == c.contractAddress && d.standard == c.standard && d.createdAt == c.createdAt
      && (d.name.None? <==> c.name.None? || c.name == Some(""))
      && (d.name.Some? ==> d.name == c.name)
      && (d.symbol.None? <==> c.symbol.None? || c.symbol == Some(""))
      && (d.symbol.Some? ==> d.symbol == c.symbol)
  {
  }

  /**
   * The creator listing holds one response per collection of the
   * lower-cased creator, and nothing else, newest first.
   */
  lemma FindByCreatorExactly(rows: seq<Collection>, creatorAddress: string)
    ensures var r := FindByCreator(rows, creatorAddress);
      && |r| == |Filter(rows, (c: Collection) => c.creatorAddress == Lower(creatorAddress))|
      && (forall k :: 0 <= k < |r| ==>
            exists c :: c in rows && c.creatorAddress == Lower(creatorAddress) && r[k] == ToDto(c))
      && (forall c :: c in rows && c.creatorAddress == Lower(creatorAddress) ==> ToDto(c) in r)
      && (forall i, j :: 0 <= i < j < |r| ==> r[i].createdAt >= r[j].createdAt)
  {
    var p := (c: Collection) => c.creatorAddress == Lower(creatorAddress);
    var q, r := Select(rows, p, CreatedAt), FindByCreator(rows, creatorAddress);
    forall k | 0 <= k < |r|
      ensures exists c :: c in rows && c.creatorAddress == Lower(creatorAddress) && r[k] == ToDto(c)
    {
      SelectMapExactly(rows, p, CreatedAt, ToDto);
      assert q[k] in rows && p(q[k]) && r[k] == ToDto(q[k]);
    }
    forall c | c in rows && c.creatorAddress == Lower(creatorAddress)
      ensures ToDto(c) in r
    {
      SelectMapExactly(rows, p, CreatedAt, ToDto);
      assert p(c);
    }
    forall i, j | 0 <= i < j < |r|
      ensures r[i].createdAt >= r[j].createdAt
    {
      SelectMapExactly(rows, p, CreatedAt, ToDto);
      assert r[i] == ToDto(q[i]) && r[j] == ToDto(q[j]);
    }
  }

  /** The full listing has one response per row, unfiltered, newest first. */
  lemma FindAllExactly(rows: seq<Collection>)
    ensures var r := FindAll(rows);
      && |r| == |rows|
      && (forall k :: 0 <= k < |r| ==> exists c :: c in rows && r[k] == ToDto(c))
      && (forall c :: c in rows ==> ToDto(c) in r)
      && (forall i, j :: 0 <= i < j < |r| ==> r[i].createdAt >= r[j].createdAt)
  {
    var all := (c: Collection) => true;
    var q, r := Select(rows, all, CreatedAt), FindAll(rows);
    assert |r| == |rows| by {
      FilterAll(rows, all);
    }
    forall k | 0 <= k < |r|
      ensures exists c :: c in rows && r[k] == ToDto(c)
    {
      SelectMapExactly(rows, all, CreatedAt, ToDto);
      assert q[k] in rows && r[k] == ToDto(q[k]);
    }
    forall c | c in rows
      ensures ToDto(c) in r
    {
      SelectMapExactly(rows, all, CreatedAt, ToDto);
      assert all(c);
    }
    forall i, j | 0 <= i < j < |r|
      ensures r[i].createdAt >= r[j].createdAt
    {
      SelectMapExactly(rows, all, CreatedAt, ToDto);
      assert r[i] == ToDto(q[i]) && r[j] == ToDto(q[j]);
    }
  }

  /** The lookup lower-cases its input and finds a collection exactly when one is stored there. */
  lemma FindByAddressEffect(rows: seq<Collection>, address: string)
    ensures var r := FindByAddress(rows, address);
      && (r.Ok? <==> exists c :: c in rows && c.contractAddress == Lower(address))
      && (r.Ok? ==> r.value.contractAddress == Lower(address) && exists c :: c in rows && r.value == ToDto(c))
      && (r.Err? ==> r.error == "Collection with address " + address + " not found")
  {
    match FirstIndex(rows, (c: Collection) => c.contractAddress == Lower(address))
    case None =>
    case Some(i) =>
      assert rows[i] in rows;
  }

  /** The lookup ignores the letter case of its input. */
  lemma FindByAddressIgnoresCase(rows: seq<Collection>, a: string, b: string)
    requires Lower(a) == Lower(b)
    ensures FindByAddress(rows, a).Ok? == FindByAddress(rows, b).Ok?
    ensures FindByAddress(rows, a).Ok? ==> FindByAddress(rows, a) == FindByAddress(rows, b)
  {
  }
}

=== FILE: config.dfy ===
/**
 * The application settings: the values `appConfig` registers from the
 * environment, and the typed getters of `AppConfigService` over them. The
 * registration falls back with `||` (an empty variable counts as unset),
 * the getters with `??` (only a missing value does).
 */
module AppConfig {
  import opened Wrappers
  import opened Text

  /** The environment variables read. */
  datatype Env = Env(
    nodeEnv: Option<string>,
    port: Option<string>,
    apiPrefix: Option<string>,
    corsOrigin: Option<string>,
    logLevel: Option<string>,
    databaseUrl: Option<string>)

  /** What `ConfigService.get` returns for `app.*` and `database.url`; `None` when unset. */
  datatype Settings = Settings(
    nodeEnv: Option<string>,
    port: Option<int>,
    apiPrefix: Option<string>,
    corsOrigin: Option<string>,
    logLevel: Option<string>,
    databaseUrl: Option<string>)

  /** JavaScript `v || d` on a string. */
  function OrElse(v: Option<string>, d: string): (r: string)
    ensures v.Some? && v.value != "" ==> r == v.value
    ensures v.None? || v.value == "" ==> r == d
  {
    if v.Some? && v.value != "" then v.value else d
  }

  /** JavaScript `v ?? d`. */
  function Coalesce<T>(v: Option<T>, d: T): T {
    if v.Some? then v.value else d
  }

  /**
   * `appConfig` (and the `url` of `databaseConfig`). `parseInt` stands for
   * the decimal parse of the PORT string.
   */
  function Registered(env: Env, parseInt: string -> int): Settings {
    Settings(
      Some(OrElse(env.nodeEnv, "development")),
      Some(parseInt(Coalesce(env.port, "3000"))),
      Some(OrElse(env.apiPrefix, "api/v1")),
      Some(OrElse(env.corsOrigin, "http://localhost:3001")),
      Some(OrElse(env.logLevel, "debug")),
      env.databaseUrl)
  }

  function NodeEnv(c: Settings): string { Coalesce(c.nodeEnv, "development") }

  predicate IsDevelopment(c: Settings) { NodeEnv(c) == "development" }

  predicate IsProduction(c: Settings) { NodeEnv(c) == "production" }

  function Port(c: Settings): int { Coalesce(c.port, 3000) }

  function ApiPrefix(c: Settings): string { Coalesce(c.apiPrefix, "api/v1") }

  function LogLevel(c: Settings): string { Coalesce(c.logLevel, "debug") }

  function DatabaseUrl(c: Settings): string { Coalesce(c.databaseUrl, "") }

  /** The CORS setting handed to the HTTP layer: one origin or a list. */
  datatype Origin = Single(origin: string) | Many(origins: seq<string>)

  /**
   * `corsOrigin`: the configured value, else the CORS_ORIGIN variable, else
   * the local front end; a value with a comma is split at every comma and
   * each piece trimmed, any other value is trimmed.
   */
  function CorsOrigin(c: Settings, envCorsOrigin: Option<string>): Origin {
    var origin := Coalesce(c.corsOrigin, Coalesce(envCorsOrigin, "http://localhost:3001"));
    if ',' in origin then
      var pieces := Split(origin, ',');
      Many(seq(|pieces|, k requires 0 <= k < |pieces| => Trim(pieces[k])))
    else Single(Trim(origin))
  }

  // ---------------------------------------------------------------------------
  // Properties
  // ---------------------------------------------------------------------------

  /** Whatever `trim` keeps of a string without `c` has no `c` either. */
  lemma TrimKeepsOut(s: string, c: char)
    requires c !in s
    ensures c !in Trim(s)
  {
    var a := TrimStart(s);
    forall k | 0 <= k < |a|
      ensures a[k] != c
    {
      assert a[k] == s[|s| - |a| + k];
    }
    var r := TrimEnd(a);
    forall k | 0 <= k < |r|
      ensures r[k] != c
    {
      assert r[k] == a[k];
    }
  }

  /**
   * A value with commas gives one origin per comma-separated piece, one
   * more than there are commas, each the trimmed piece and none holding a
   * comma; the untrimmed pieces joined with commas give the value back. A
   * value without a comma gives that value trimmed.
   */
  lemma {:induction false} CorsOriginPieces(c: Settings, envCorsOrigin: Option<string>)
    ensures var origin := Coalesce(c.corsOrigin, Coalesce(envCorsOrigin, "http://localhost:3001"));
      var r := CorsOrigin(c, envCorsOrigin);
      && (',' in origin ==>
            && r.Many?
            && |r.origins| == Count(origin, ',') + 1 >= 2
            && (forall k :: 0 <= k < |r.origins| ==> r.origins[k] == Trim(Split(origin, ',')[k]))
            && (forall k :: 0 <= k < |r.origins| ==> ',' !in r.origins[k])
            && Join(Split(origin, ','), ',') == origin)
      && (',' !in origin ==> r == Single(Trim(origin)))
  {
    var origin := Coalesce(c.corsOrigin, Coalesce(envCorsOrigin, "http://localhost:3001"));
    var r := CorsOrigin(c, envCorsOrigin);
    if ',' in origin {
      var pieces := Split(origin, ',');
      assert r == Many(seq(|pieces|, k requires 0 <= k < |pieces| => Trim(pieces[k])));
      forall k | 0 <= k < |r.origins|
        ensures r.origins[k] == Trim(pieces[k]) && ',' !in r.origins[k]
      {
        TrimKeepsOut(pieces[k], ',');
      }
    }
  }

  /** With neither the setting nor the variable, the origin is the local front end. */
  lemma CorsOriginDefault(c: Settings)
    requires c.corsOrigin.None?
    ensures CorsOrigin(c, None) == Single("http://localhost:3001")
  {
    var d := "http://localhost:3001";
    assert ',' !in d;
    TrimStartNoop(d);
    TrimEndNoop(d);
  }

  /**
   * Once `appConfig` is registered the CORS setting is always present, so
   * an unset or empty CORS_ORIGIN gives the local front end.
   */
  lemma RegisteredCorsOriginDefault(env: Env, parseInt: string -> int, envCorsOrigin: Option<string>)
    requires env.corsOrigin.None? || env.corsOrigin == Some("")
    ensures CorsOrigin(Registered(env, parseInt), envCorsOrigin) == Single("http://localhost:3001")
  {
    var d := "http://localhost:3001";
    assert ',' !in d;
    TrimStartNoop(d);
    TrimEndNoop(d);
  }

  /** The app is never in development and production at once. */
  lemma EnvironmentsExclusive(c: Settings)
    ensures !(IsDevelopment(c) && IsProduction(c))
    ensures c.nodeEnv.None? ==> IsDevelopment(c)
  {
  }

  /**
   * The getters' defaults on unset values, and the registration's defaults
   * on an environment without those variables; an empty NODE_ENV also
   * means development, an empty registered value does not.
   */
  lemma Defaults(env: Env, parseInt: string -> int)
    ensures var none := Settings(None, None, None, None, None, None);
      && NodeEnv(none) == "development" && Port(none) == 3000 && ApiPrefix(none) == "api/v1"
      && LogLevel(none) == "debug" && DatabaseUrl(none) == ""
    ensures env == Env(None, None, None, None, None, None) ==>
      var c := Registered(env, parseInt);
      && NodeEnv(c) == "development" && Port(c) == parseInt("3000") && ApiPrefix(c) == "api/v1"
      && LogLevel(c) == "debug" && DatabaseUrl(c) == ""
    ensures env.nodeEnv == Some("") ==> IsDevelopment(Registered(env, parseInt))
    ensures !IsDevelopment(Settings(Some(""), None, None, None, None, None))
  {
  }
}

=== FILE: dto.dfy ===
/**
 * The request validators in front of the services: the address filters of
 * the two listing queries, the profile update body and the login body.
 * Each validator either accepts the request, handing the service the
 * (possibly transformed) values, or rejects it with the set of messages the
 * failed constraints produce (the 400 answer lists them all).
 */
module Validation {
  import opened Wrappers
  import opened Text
  import opened Users

  /**
   * One property of a JSON body once the implicit conversion to the declared
   * string type has run: missing, `null`, or a string.
   */
  datatype Field = Absent | Null | Str(s: string)

  // ---------------------------------------------------------------------------
  // Character classes and lengths
  // ---------------------------------------------------------------------------

  predicate IsHexDigit(c: char) {
    '0' <= c <= '9' || 'a' <= c <= 'f' || 'A' <= c <= 'F'
  }

  /** `/^0x[a-fA-F0-9]{40}$/` */
  predicate IsEthAddress(s: string) {
    |s| == 42 && s[0] == '0' && s[1] == 'x' && forall k :: 2 <= k < 42 ==> IsHexDigit(s[k])
  }

  predicate IsWordChar(c: char) {
    'a' <= c <= 'z' || 'A' <= c <= 'Z' || '0' <= c <= '9' || c == '_'
  }

  /** `/^[a-zA-Z0-9_]+$/` */
  predicate IsWord(s: string) {
    s != [] && forall k :: 0 <= k < |s| ==> IsWordChar(s[k])
  }

  /**
   * The length the `Length` constraint compares: characters, where an
   * emoji presentation selector (U+FE0E, U+FE0F) does not count.
   */
  function ValidatorLength(s: string): int {
    |s| - Count(s, '\U{FE0E}') - Count(s, '\U{FE0F}')
  }

  // ---------------------------------------------------------------------------
  // Listing queries
  // ---------------------------------------------------------------------------

  function AddressMessage(property: string): string {
    property + " must be a valid Ethereum address (0x followed by 40 hex characters)"
  }

  /**
   * One optional address parameter: lowercased first, then skipped when
   * missing, then matched against the address pattern. A query parameter
   * is taken to be a single string (repeated parameters are not modelled).
   */
  function AddressParam(property: string, value: Option<string>): Result<Option<string>, string> {
    match value
    case None => Ok(None)
    case Some(v) =>
      var l := Lower(v);
      if IsEthAddress(l) then Ok(Some(l)) else Err(AddressMessage(property))
  }

  function ErrorsOf<T>(r: Result<T, string>): set<string> {
    if r.Err? then {r.error} else {}
  }

  datatype NftsQuery = NftsQuery(collectionAddress: Option<string>, ownerAddress: Option<string>)

  function ValidateNftsQuery(q: NftsQuery): Result<NftsQuery, set<string>> {
    var c := AddressParam("collectionAddress", q.collectionAddress);
    var o := AddressParam("ownerAddress", q.ownerAddress);
    if c.Ok? && o.Ok? then Ok(NftsQuery(c.value, o.value)) else Err(ErrorsOf(c) + ErrorsOf(o))
  }

  datatype CollectionsQuery = CollectionsQuery(creatorAddress: Option<string>)

  function ValidateCollectionsQuery(q: CollectionsQuery): Result<CollectionsQuery, set<string>> {
    var c := AddressParam("creatorAddress", q.creatorAddress);
    if c.Ok? then Ok(CollectionsQuery(c.value)) else Err(ErrorsOf(c))
  }

  // ---------------------------------------------------------------------------
  // Profile update body
  // ---------------------------------------------------------------------------

  const UsernameLength := "Username must be between 3 and 20 characters"
  const UsernamePattern := "Username must contain only letters, numbers and underscores"
  const BioLength := "bio must be shorter than or equal to 500 characters"
  const AvatarUrl := "Avatar must be a valid URL"

  /** Optional, then between 3 and 20 long, then letters, digits and underscores. */
  function UsernameErrors(f: Field): set<string> {
    match f
    case Str(s) =>
      (if 3 <= ValidatorLength(s) <= 20 then {} else {UsernameLength})
      + (if IsWord(s) then {} else {UsernamePattern})
    case _ => {}
  }

  /** Optional, then at most 500 long. */
  function BioErrors(f: Field): set<string> {
    match f
    case Str(s) => if ValidatorLength(s) <= 500 then {} else {BioLength}
    case _ => {}
  }

  /** Optional, then a URL (`isUrl` is the URL syntax check). */
  function AvatarErrors(f: Field, isUrl: string -> bool): set<string> {
    match f
    case Str(s) => if isUrl(s) then {} else {AvatarUrl}
    case _ => {}
  }

  /** How a property reaches the update: missing keeps, `null` clears, a string sets. */
  function AsPatch(f: Field): Patch {
    match f
    case Absent => Keep
    case Null => Clear
    case Str(s) => Put(s)
  }

  datatype UpdateUserBody = UpdateUserBody(username: Field, bio: Field, avatar: Field)

  function ValidateUpdateUser(b: UpdateUserBody, isUrl: string -> bool): Result<ProfileUpdate, set<string>> {
    var errs := UsernameErrors(b.username) + BioErrors(b.bio) + AvatarErrors(b.avatar, isUrl);
    if errs == {} then Ok(ProfileUpdate(AsPatch(b.username), AsPatch(b.bio), AsPatch(b.avatar)))
    else Err(errs)
  }

  // ---------------------------------------------------------------------------
  // Login body
  // ---------------------------------------------------------------------------

  const MessageRequired := "SIWE message is required"
  const SignatureRequired := "Signature is required"

  /** A string, then not empty. */
  function RequiredErrors(property: string, required: string, f: Field): set<string> {
    match f
    case Str(s) => if s == "" then {required} else {}
    case _ => {property + " must be a string", required}
  }

  datatype LoginBody = LoginBody(message: Field, signature: Field)

  function ValidateLogin(b: LoginBody): Result<(string, string), set<string>> {
    var errs := RequiredErrors("message", MessageRequired, b.message)
              + RequiredErrors("signature", SignatureRequired, b.signature);
    if errs == {} then Ok((b.message.s, b.signature.s)) else Err(errs)
  }

  // ---------------------------------------------------------------------------
  // Properties
  // ---------------------------------------------------------------------------

  /**
   * An address parameter is accepted exactly when it is missing or its
   * lowercase form is `0x` and 40 hex digits, so `0X…` and mixed case pass.
   * What passes on is lowercase, the form the indexer stores addresses in;
   * anything else, the empty string included, is rejected with the
   * property's message.
   */
  lemma {:induction false} AddressParamEffect(property: string, value: Option<string>)
    ensures var r := AddressParam(property, value);
      && (r.Ok? <==> value.None? || IsEthAddress(Lower(value.value)))
      && (r.Ok? && value.Some? ==>
            r.value == Some(Lower(value.value)) && IsEthAddress(r.value.value) && Lower(r.value.value) == r.value.value)
      && (value.None? ==> r == Ok(None))
      && (r.Err? ==> r.error == AddressMessage(property))
      && (value == Some("") ==> r.Err?)
  {
    if value.Some? {
      LowerIdempotent(value.value);
    }
  }

  /** A hex address with either `0x` or `0X` in front passes, lowercased. */
  lemma {:induction false} UpperPrefixAccepted(property: string, v: string)
    requires |v| == 42 && v[0] == '0' && (v[1] == 'x' || v[1] == 'X')
    requires forall k :: 2 <= k < 42 ==> IsHexDigit(v[k])
    ensures AddressParam(property, Some(v)) == Ok(Some(Lower(v)))
  {
    var l := Lower(v);
    forall k | 2 <= k < 42
      ensures IsHexDigit(l[k])
    {
      assert l[k] == LowerChar(v[k]);
    }
    assert l[1] == LowerChar(v[1]);
    assert IsEthAddress(l);
  }

  /**
   * The NFT listing query passes exactly when both filters pass; otherwise
   * the answer holds the message of each filter that failed and no other.
   */
  lemma NftsQueryEffect(q: NftsQuery)
    ensures var c, o := AddressParam("collectionAddress", q.collectionAddress), AddressParam("ownerAddress", q.ownerAddress);
      var r := ValidateNftsQuery(q);
      && (r.Ok? <==> c.Ok? && o.Ok?)
      && (r.Ok? ==> r.value == NftsQuery(c.value, o.value))
      && (r.Err? ==>
            && (AddressMessage("collectionAddress") in r.error <==> c.Err?)
            && (AddressMessage("ownerAddress") in r.error <==> o.Err?)
            && |r.error| <= 2)
  {
    var m1, m2 := AddressMessage("collectionAddress"), AddressMessage("ownerAddress");
    assert m1[0] != m2[0];
  }

  /** An accepted username is 3 to 20 letters, digits and underscores, and every such name is accepted. */
  lemma {:induction false} UsernameAccepted(s: string)
    ensures UsernameErrors(Str(s)) == {} <==> 3 <= |s| <= 20 && IsWord(s)
  {
    if IsWord(s) {
      assert '\U{FE0E}' !in s && '\U{FE0F}' !in s by {
        forall k | 0 <= k < |s| ensures s[k] != '\U{FE0E}' && s[k] != '\U{FE0F}' {
          assert IsWordChar(s[k]);
        }
      }
      assert ValidatorLength(s) == |s|;
    }
  }

  /**
   * The profile update body passes exactly when each present property meets
   * its constraints; an empty body passes as an update that changes
   * nothing, and `null` clears. What passes never sets the username to the
   * empty string, so the service always runs its uniqueness check on a
   * username it sets.
   */
  lemma {:induction false} UpdateUserEffect(b: UpdateUserBody, isUrl: string -> bool)
    ensures var r := ValidateUpdateUser(b, isUrl);
      && (r.Ok? <==>
            && (b.username.Str? ==> 3 <= |b.username.s| <= 20 && IsWord(b.username.s))
            && (b.bio.Str? ==> ValidatorLength(b.bio.s) <= 500)
            && (b.avatar.Str? ==> isUrl(b.avatar.s)))
      && (r.Ok? ==>
            && r.value == ProfileUpdate(AsPatch(b.username), AsPatch(b.bio), AsPatch(b.avatar))
            && r.value.username != Put(""))
      && (b == UpdateUserBody(Absent, Absent, Absent) ==> r == Ok(ProfileUpdate(Keep, Keep, Keep)))
  {
    if b.username.Str? {
      UsernameAccepted(b.username.s);
    }
  }

  /** Login passes exactly when both message and signature are non-empty strings. */
  lemma LoginBodyEffect(b: LoginBody)
    ensures var r := ValidateLogin(b);
      && (r.Ok? <==> b.message.Str? && b.message.s != "" && b.signature.Str? && b.signature.s != "")
      && (r.Ok? ==> r.value == (b.message.s, b.signature.s))
      && (r.Err? ==> (MessageRequired in r.error <==> !(b.message.Str? && b.message.s != "")))
  {
  }
}

=== FILE: guard.dfy ===
/**
 * The decision the JWT guard takes once the token strategy has run: let the
 * request through with the user the strategy produced, or refuse it with
 * one of three Unauthorized messages chosen by the kind of token failure.
 */
module JwtGuard {
  import opened Wrappers

  const TokenExpired := "Token has expired. Please login again."
  const TokenInvalid := "Invalid token. Please login again."
  const AuthRequired := "Authentication required. Please login."

  /**
   * `handleRequest`. `err` says whether the strategy reported an error,
   * `user` is the user it produced (`None` for a falsy one), and `infoName`
   * the `name` of the info it passed along, if any. The result is the user,
   * or the message of the Unauthorized exception thrown.
   */
  function HandleRequest<U>(err: bool, user: Option<U>, infoName: Option<string>): Result<U, string> {
    if err || user.None? then
      if infoName == Some("TokenExpiredError") then Err(TokenExpired)
      else if infoName == Some("JsonWebTokenError") then Err(TokenInvalid)
      else Err(AuthRequired)
    else Ok(user.value)
  }

  /**
   * The request passes exactly when there is no error and a user, and then
   * carries that user unchanged. A refusal names an expired token exactly
   * when the info is a TokenExpiredError, an invalid token exactly when it
   * is a JsonWebTokenError, and asks for a login otherwise, an error
   * reported beside a present user included.
   */
  lemma HandleRequestDecision<U>(err: bool, user: Option<U>, infoName: Option<string>)
    ensures var r := HandleRequest(err, user, infoName);
      && (r.Ok? <==> !err && user.Some?)
      && (r.Ok? ==> r.value == user.value)
      && (r.Err? ==> r.error in {TokenExpired, TokenInvalid, AuthRequired})
      && (r.Err? ==> (r.error == TokenExpired <==> infoName == Some("TokenExpiredError")))
      && (r.Err? ==> (r.error == TokenInvalid <==> infoName == Some("JsonWebTokenError")))
      && (err && infoName.None? ==> r == Err(AuthRequired))
  {
  }
}

=== FILE: indexer.dfy ===
/**
 * The indexer service itself: a cursor and the four tables it writes,
 * updated in place by one method per event handler, one per indexing
 * phase and one per block notification. Every method is proved to leave
 * exactly the state the functions of `Reconcile` describe, so the
 * properties proved about those functions hold of the service.
 */
module Indexer {
  import opened Wrappers
  import opened Text
  import opened Store
  import opened Reconcile
  import opened ReconcileProps

  class IndexerService {
    /** The last block whose logs were fully handled; 0 until the first notification. */
    var lastProcessedBlock: int
    var collections: map<Address, Collection>
    var collectionOrder: seq<Address>
    var nfts: map<TokenKey, Nft>
    var editions: map<TokenKey, Edition>
    var balances: map<BalanceKey, int>
    /** The collection factory whose CollectionCreated logs are followed. */
    const factoryAddress: Address

    /** The tables as one value. */
    function Snapshot(): Store
      reads this
    {
      Store(collections, collectionOrder, nfts, editions, balances)
    }

    function State(): Indexer
      reads this
    {
      Indexer(lastProcessedBlock, Snapshot())
    }

    constructor(factory: Address)
      ensures lastProcessedBlock == 0 && Snapshot() == Empty && factoryAddress == factory
      ensures Consistent(Snapshot())
    {
      lastProcessedBlock := 0;
      collections := map[];
      collectionOrder := [];
      nfts := map[];
      editions := map[];
      balances := map[];
      factoryAddress := factory;
      EmptyConsistent();
    }

    // -------------------------------------------------------------------------
    // The handlers of one event
    // -------------------------------------------------------------------------

    /** CollectionCreated: read name and symbol, then upsert the collection row. */
    method OnCollectionCreated(creator: Address, collection: Address, standard: string, node: Node, now: nat)
      modifies this
      ensures Snapshot() == CreateCollection(old(Snapshot()), creator, collection, standard,
                                             ContractNames(node, Lower(collection)), now)
      ensures lastProcessedBlock == old(lastProcessedBlock)
    {
      var c := Lower(collection);
      var cr := Lower(creator);
      var name, symbol := "Unknown Collection", "UNK";
      var n := node.name(c);
      if n.Some? {
        name := n.value;
        var sy := node.symbol(c);
        if sy.Some? {
          symbol := sy.value;
        }
      }
      if c !in collections {
        collections := collections[c := Collection(c, ChainId, standard, cr, 0, Some(name), Some(symbol), now)];
        collectionOrder := collectionOrder + [c];
      }
    }

    /** ERC-721 Transfer: upsert on a mint, update of an existing row otherwise. */
    method OnTransfer(contract: Address, from: Address, to: Address, tokenId: nat, now: nat)
      returns (err: Option<IndexError>)
      modifies this
      ensures Outcome(Snapshot(), err) == Transfer721(old(Snapshot()), contract, from, to, tokenId, now)
      ensures lastProcessedBlock == old(lastProcessedBlock)
    {
      var f, t := Lower(from), Lower(to);
      var key := TokenKey(contract, Decimal(tokenId));
      err := None;
      if f == ZeroAddress {
        if key in nfts {
          nfts := nfts[key := nfts[key].(ownerAddress := t)];
        } else {
          nfts := nfts[key := Nft(contract, key.tokenId, ChainId, t, t, "", None, None, None, now)];
        }
      } else if key in nfts {
        nfts := nfts[key := nfts[key].(ownerAddress := t)];
      } else {
        err := Some(MissingToken(key));
      }
    }

    /**
     * ERC-1155 TransferSingle: upsert the edition, decrement the sender's
     * row when there is one, increment or create the recipient's row.
     */
    method OnTransferSingle(contract: Address, from: Address, to: Address, id: nat, amount: nat, now: nat)
      modifies this
      ensures Snapshot() == Transfer1155(old(Snapshot()), contract, from, to, id, amount, now)
      ensures lastProcessedBlock == old(lastProcessedBlock)
    {
      var f, t := Lower(from), Lower(to);
      var key := TokenKey(contract, Decimal(id));
      if key !in editions {
        var creator := if f == ZeroAddress then t else f;
        editions := editions[key := Edition(contract, key.tokenId, ChainId, creator, 0, "", now)];
      }
      if f != ZeroAddress {
        var kf := BalanceKey(key, f);
        if kf in balances {
          balances := balances[kf := balances[kf] - amount];
        }
      }
      var kt := BalanceKey(key, t);
      if kt in balances {
        balances := balances[kt := balances[kt] + amount];
      } else {
        balances := balances[kt := amount];
      }
    }

    /** One fetched log, handed to the handler of the phase. */
    method HandleLog(phase: Phase, log: Option<Event>, node: Node, now: nat) returns (err: Option<IndexError>)
      modifies this
      ensures Outcome(Snapshot(), err) == Step(old(Snapshot()), phase, log, node, now)
      ensures lastProcessedBlock == old(lastProcessedBlock)
    {
      err := None;
      match log
      case None =>
      case Some(e) =>
        match (phase, e)
        case (Factory, CollectionCreated(creator, collection, ty)) =>
          OnCollectionCreated(creator, collection, ty, node, now);
        case (Erc721(c), Transfer(from, to, tokenId)) =>
          err := OnTransfer(c, from, to, tokenId, now);
        case (Erc1155(c), TransferSingle(_, from, to, id, value)) =>
          OnTransferSingle(c, from, to, id, value, now);
        case _ =>
          err := Some(UnexpectedEvent(TopicOf(phase)));
    }

    // -------------------------------------------------------------------------
    // Batches and phases
    // -------------------------------------------------------------------------

    /** The logs of one query, in order, stopping at the first that throws. */
    method ApplyLogs(phase: Phase, logs: seq<Option<Event>>, node: Node, now: nat) returns (err: Option<IndexError>)
      modifies this
      ensures Outcome(Snapshot(), err) == RunLogs(old(Snapshot()), phase, logs, node, now)
      ensures lastProcessedBlock == old(lastProcessedBlock)
    {
      ghost var s0 := Snapshot();
      var i := 0;
      while i < |logs|
        invariant 0 <= i <= |logs|
        invariant Outcome(Snapshot(), None) == RunLogs(s0, phase, logs[..i], node, now)
        invariant lastProcessedBlock == old(lastProcessedBlock)
      {
        assert logs[..i + 1][..i] == logs[..i];
        err := HandleLog(phase, logs[i], node, now);
        if err.Some? {
          RunLogsStops(s0, phase, logs, node, now, i + 1);
          return;
        }
        i := i + 1;
      }
      assert logs[..|logs|] == logs;
      err := None;
    }

    /** One log query and the handling of its logs; a failing query throws. */
    method FetchLogs(phase: Phase, address: Address, from: int, to: int, node: Node, now: nat)
      returns (err: Option<IndexError>)
      modifies this
      ensures Outcome(Snapshot(), err) == FetchAndRun(old(Snapshot()), phase, address, from, to, node, now)
      ensures lastProcessedBlock == old(lastProcessedBlock)
    {
      var fetched := node.getLogs(address, TopicOf(phase), from, to);
      match fetched
      case None =>
        err := Some(NodeError(address, TopicOf(phase)));
      case Some(logs) =>
        err := ApplyLogs(phase, logs, node, now);
    }

    /** Phase 1: the factory's CollectionCreated logs. */
    method IndexCollectionCreated(from: int, to: int, node: Node, now: nat) returns (err: Option<IndexError>)
      modifies this
      ensures Outcome(Snapshot(), err) == FetchAndRun(old(Snapshot()), Factory, factoryAddress, from, to, node, now)
      ensures lastProcessedBlock == old(lastProcessedBlock)
    {
      err := FetchLogs(Factory, factoryAddress, from, to, node, now);
    }

    /** Every collection of one standard, as listed at the start of the phase, one query each. */
    method IndexTransfers(kind: Kind, from: int, to: int, node: Node, now: nat) returns (err: Option<IndexError>)
      modifies this
      ensures Outcome(Snapshot(), err)
           == RunCollections(old(Snapshot()), kind, Listed(old(Snapshot()), StandardOf(kind)), from, to, node, now)
      ensures lastProcessedBlock == old(lastProcessedBlock)
    {
      ghost var s0 := Snapshot();
      var cols := Listed(Snapshot(), StandardOf(kind));
      var i := 0;
      while i < |cols|
        invariant 0 <= i <= |cols|
        invariant Outcome(Snapshot(), None) == RunCollections(s0, kind, cols[..i], from, to, node, now)
        invariant lastProcessedBlock == old(lastProcessedBlock)
      {
        var c := cols[i];
        assert cols[..i + 1][..i] == cols[..i];
        err := FetchLogs(PhaseOf(kind, c), c, from, to, node, now);
        if err.Some? {
          RunCollectionsStops(s0, kind, cols, from, to, node, now, i + 1);
          return;
        }
        i := i + 1;
      }
      assert cols[..|cols|] == cols;
      err := None;
    }

    /** Phase 2: the Transfer logs of every ERC721 collection. */
    method IndexErc721Transfers(from: int, to: int, node: Node, now: nat) returns (err: Option<IndexError>)
      modifies this
      ensures Outcome(Snapshot(), err)
           == RunCollections(old(Snapshot()), Kind721, Listed(old(Snapshot()), "ERC721"), from, to, node, now)
      ensures lastProcessedBlock == old(lastProcessedBlock)
    {
      err := IndexTransfers(Kind721, from, to, node, now);
    }

    /** Phase 3: the TransferSingle logs of every ERC1155 collection. */
    method IndexErc1155Transfers(from: int, to: int, node: Node, now: nat) returns (err: Option<IndexError>)
      modifies this
      ensures Outcome(Snapshot(), err)
           == RunCollections(old(Snapshot()), Kind1155, Listed(old(Snapshot()), "ERC1155"), from, to, node, now)
      ensures lastProcessedBlock == old(lastProcessedBlock)
    {
      err := IndexTransfers(Kind1155, from, to, node, now);
    }

    // -------------------------------------------------------------------------
    // The block listener
    // -------------------------------------------------------------------------

    /**
     * One block notification: set the cursor on the first one, otherwise
     * run the three phases over (cursor, b] and advance the cursor only if
     * none of them threw. The store stays well-formed either way.
     */
    method OnBlock(b: int, node: Node, now: nat) returns (status: TickStatus)
      modifies this
      ensures State() == Tick(old(State()), b, node, factoryAddress, now).state
      ensures status == Tick(old(State()), b, node, factoryAddress, now).status
      ensures old(Consistent(Snapshot())) ==> Consistent(Snapshot())
    {
      ghost var st := State();
      if lastProcessedBlock == 0 {
        lastProcessedBlock := b - 1;
        return Bootstrapped;
      }
      var from := lastProcessedBlock + 1;
      var err := IndexCollectionCreated(from, b, node, now);
      if err.None? {
        err := IndexErc721Transfers(from, b, node, now);
        if err.None? {
          err := IndexErc1155Transfers(from, b, node, now);
        }
      }
      assert Outcome(Snapshot(), err) == Phases(st.store, from, b, node, factoryAddress, now);
      match err {
        case None =>
          lastProcessedBlock := b;
          status := Indexed;
        case Some(e) =>
          status := Abandoned(e);
      }
      if Consistent(st.store) {
        TickConsistent(st, b, node, factoryAddress, now);
      }
    }
  }
}

=== FILE: ledger.dfy ===
/**
 * Sums of integer-valued maps: the total balance an edition's
 * EditionBalance rows add up to.
 */
module Ledger {

  ghost function Pick<K>(m: map<K, int>): K
    requires m != map[]
  {
    var k :| k in m; k
  }

  /** The sum of the values of `m`. */
  ghost function Sum<K>(m: map<K, int>): int
    decreases |m|
  {
    if m == map[] then 0
    else
      var k := Pick(m);
      assert m.Keys == (m - {k}).Keys + {k};
      m[k] + Sum(m - {k})
  }

  /** The sum does not depend on which key is taken out first. */
  lemma {:induction false} SumRemove<K>(m: map<K, int>, k: K)
    requires k in m
    ensures Sum(m) == m[k] + Sum(m - {k})
    decreases |m|
  {
    var p := Pick(m);
    assert m.Keys == (m - {p}).Keys + {p};
    if p != k {
      var mp, mk := m - {p}, m - {k};
      assert mp.Keys == (mp - {k}).Keys + {k};
      assert mk.Keys == (mk - {p}).Keys + {p};
      SumRemove(mp, k);
      SumRemove(mk, p);
      assert mp - {k} == mk - {p};
    }
  }

  /** Overwriting one entry changes the sum by the difference. */
  lemma SumUpdate<K>(m: map<K, int>, k: K, v: int)
    ensures Sum(m[k := v]) == Sum(m) - (if k in m then m[k] else 0) + v
  {
    var m' := m[k := v];
    SumRemove(m', k);
    assert m' - {k} == m - {k};
    if k in m {
      SumRemove(m, k);
    } else {
      assert m - {k} == m;
    }
  }
}

=== FILE: nfts.dfy ===
/**
 * The read side of the token table: the listings by collection, by owner
 * and in full, the lookup of one token, and the collection preview. The
 * table is the sequence of its rows in storage order, which decides the
 * order among rows created at the same time.
 */
module Nfts {
  import opened Wrappers
  import opened Text
  import opened Store
  import opened Ordering

  /**
   * The response for one token: the selected columns with null or empty
   * texts left out. The spread keeps the raw `imageUrl` beside `image`.
   */
  datatype NftDto = NftDto(
    contractAddress: string,
    tokenId: string,
    ownerAddress: string,
    name: Option<string>,
    description: Option<string>,
    imageUrl: Option<string>,
    image: Option<string>,
    metadataUri: Option<string>,
    createdAt: nat)

  datatype Preview = Preview(collectionAddress: string, totalCount: nat, previewImages: seq<string>)

  function ToDto(n: Nft): NftDto {
    NftDto(n.contractAddress, n.tokenId, n.ownerAddress, OrUndefined(n.name), OrUndefined(n.description),
           n.imageUrl, OrUndefined(n.imageUrl), OrUndefined(Some(n.metadataUri)), n.createdAt)
  }

  function CreatedAt(n: Nft): int { n.createdAt }

  function FindByCollection(rows: seq<Nft>, collectionAddress: string): seq<NftDto> {
    SelectMap(rows, (n: Nft) => n.contractAddress == Lower(collectionAddress), CreatedAt, ToDto)
  }

  function FindByOwner(rows: seq<Nft>, ownerAddress: string): seq<NftDto> {
    SelectMap(rows, (n: Nft) => n.ownerAddress == Lower(ownerAddress), CreatedAt, ToDto)
  }

  function FindAll(rows: seq<Nft>): seq<NftDto> {
    SelectMap(rows, (n: Nft) => true, CreatedAt, ToDto)
  }

  /** `findOne`: the token under (lower-cased address, token id as given), or NotFound. */
  function FindOne(rows: seq<Nft>, contractAddress: string, tokenId: string): Result<NftDto, string> {
    match FirstIndex(rows, (n: Nft) => n.contractAddress == Lower(contractAddress) && n.tokenId == tokenId)
    case None => Err("NFT with address " + contractAddress + " and tokenId " + tokenId + " not found")
    case Some(i) => Ok(ToDto(rows[i]))
  }

  /**
   * `getCollectionPreview`: the number of tokens of the collection, and the
   * image URLs of its newest three tokens whose image is not null.
   */
  function CollectionPreview(rows: seq<Nft>, collectionAddress: string): Preview {
    var a := Lower(collectionAddress);
    var totalCount := |Filter(rows, (n: Nft) => n.contractAddress == a)|;
    var withImage := Take(Select(rows, (n: Nft) => n.contractAddress == a && n.imageUrl.Some?, CreatedAt), 3);
    Preview(a, totalCount, seq(|withImage|, k requires 0 <= k < |withImage| => withImage[k].imageUrl.value))
  }

  // ---------------------------------------------------------------------------
  // Properties
  // ---------------------------------------------------------------------------

  /**
   * The response copies address, token id, owner, raw image URL and
   * creation time, and leaves out a name, description, image or metadata
   * URI that is null or empty.
   */
  lemma ToDtoFields(n: Nft)
    ensures var d := ToDto(n);
      && d.contractAddress == n.contractAddress && d.tokenId == n.tokenId
      && d.ownerAddress == n.ownerAddress && d.createdAt == n.createdAt && d.imageUrl == n.imageUrl
      && (d.name.None? <==> n.name.None? || n.name == Some(""))
      && (d.name.Some? ==> d.name == n.name)
      && (d.description.None? <==> n.description.None? || n.description == Some(""))
      && (d.description.Some? ==> d.description == n.description)
      && (d.image.None? <==> n.imageUrl.None? || n.imageUrl == Some(""))
      && (d.image.Some? ==> d.image == n.imageUrl)
      && (d.metadataUri.None? <==> n.metadataUri == "")
      && (d.metadataUri.Some? ==> d.metadataUri.value == n.metadataUri)
  {
  }

  /**
   * The collection listing holds one response per token of the lower-cased
   * address, and nothing else, newest first.
   */
  lemma FindByCollectionExactly(rows: seq<Nft>, collectionAddress: string)
    ensures var a, r := Lower(collectionAddress), FindByCollection(rows, collectionAddress);
      && |r| == |Filter(rows, (n: Nft) => n.contractAddress == Lower(collectionAddress))|
      && (forall k :: 0 <= k < |r| ==> exists n :: n in rows && n.contractAddress == a && r[k] == ToDto(n))
      && (forall n :: n in rows && n.contractAddress == a ==> ToDto(n) in r)
      && (forall i, j :: 0 <= i < j < |r| ==> r[i].createdAt >= r[j].createdAt)
  {
    var p := (n: Nft) => n.contractAddress == Lower(collectionAddress);
    var q, r := Select(rows, p, CreatedAt), FindByCollection(rows, collectionAddress);
    forall k | 0 <= k < |r|
      ensures exists n :: n in rows && n.contractAddress == Lower(collectionAddress) && r[k] == ToDto(n)
    {
      SelectMapExactly(rows, p, CreatedAt, ToDto);
      assert q[k] in rows && p(q[k]) && r[k] == ToDto(q[k]);
    }
    forall n | n in rows && n.contractAddress == Lower(collectionAddress)
      ensures ToDto(n) in r
    {
      SelectMapExactly(rows, p, CreatedAt, ToDto);
      assert p(n);
    }
    forall i, j | 0 <= i < j < |r|
      ensures r[i].createdAt >= r[j].createdAt
    {
      SelectMapExactly(rows, p, CreatedAt, ToDto);
      assert r[i] == ToDto(q[i]) && r[j] == ToDto(q[j]);
    }
  }

  /**
   * The owner listing holds one response per token owned by the
   * lower-cased address, and nothing else, newest first.
   */
  lemma FindByOwnerExactly(rows: seq<Nft>, ownerAddress: string)
    ensures var a, r := Lower(ownerAddress), FindByOwner(rows, ownerAddress);
      && |r| == |Filter(rows, (n: Nft) => n.ownerAddress == Lower(ownerAddress))|
      && (forall k :: 0 <= k < |r| ==> exists n :: n in rows && n.ownerAddress == a && r[k] == ToDto(n))
      && (forall n :: n in rows && n.ownerAddress == a ==> ToDto(n) in r)
      && (forall i, j :: 0 <= i < j < |r| ==> r[i].createdAt >= r[j].createdAt)
  {
    var p := (n: Nft) => n.ownerAddress == Lower(ownerAddress);
    var q, r := Select(rows, p, CreatedAt), FindByOwner(rows, ownerAddress);
    forall k | 0 <= k < |r|
      ensures exists n :: n in rows && n.ownerAddress == Lower(ownerAddress) && r[k] == ToDto(n)
    {
      SelectMapExactly(rows, p, CreatedAt, ToDto);
      assert q[k] in rows && p(q[k]) && r[k] == ToDto(q[k]);
    }
    forall n | n in rows && n.ownerAddress == Lower(ownerAddress)
      ensures ToDto(n) in r
    {
      SelectMapExactly(rows, p, CreatedAt, ToDto);
      assert p(n);
    }
    forall i, j | 0 <= i < j < |r|
      ensures r[i].createdAt >= r[j].createdAt
    {
      SelectMapExactly(rows, p, CreatedAt, ToDto);
      assert r[i] == ToDto(q[i]) && r[j] == ToDto(q[j]);
    }
  }

  /** The full listing has one response per row, newest first. */
  lemma FindAllExactly(rows: seq<Nft>)
    ensures var r := FindAll(rows);
      && |r| == |rows|
      && (forall k :: 0 <= k < |r| ==> exists n :: n in rows && r[k] == ToDto(n))
      && (forall n :: n in rows ==> ToDto(n) in r)
      && (forall i, j :: 0 <= i < j < |r| ==> r[i].createdAt >= r[j].createdAt)
  {
    var all := (n: Nft) => true;
    var q, r := Select(rows, all, CreatedAt), FindAll(rows);
    assert |r| == |rows| by {
      FilterAll(rows, all);
    }
    forall k | 0 <= k < |r|
      ensures exists n :: n in rows && r[k] == ToDto(n)
    {
      SelectMapExactly(rows, all, CreatedAt, ToDto);
      assert q[k] in rows && r[k] == ToDto(q[k]);
    }
    forall n | n in rows
      ensures ToDto(n) in r
    {
      SelectMapExactly(rows, all, CreatedAt, ToDto);
      assert all(n);
    }
    forall i, j | 0 <= i < j < |r|
      ensures r[i].createdAt >= r[j].createdAt
    {
      SelectMapExactly(rows, all, CreatedAt, ToDto);
      assert r[i] == ToDto(q[i]) && r[j] == ToDto(q[j]);
    }
  }

  /**
   * The address is lower-cased and the token id matched as given; the
   * lookup finds a token exactly when one is stored under that pair.
   */
  lemma FindOneEffect(rows: seq<Nft>, contractAddress: string, tokenId: string)
    ensures var r := FindOne(rows, contractAddress, tokenId);
      && (r.Ok? <==> exists n :: n in rows && n.contractAddress == Lower(contractAddress) && n.tokenId == tokenId)
      && (r.Ok? ==> r.value.contractAddress == Lower(contractAddress) && r.value.tokenId == tokenId
                    && exists n :: n in rows && r.value == ToDto(n))
      && (r.Err? ==> r.error == "NFT with address " + contractAddress + " and tokenId " + tokenId + " not found")
  {
    match FirstIndex(rows, (n: Nft) => n.contractAddress == Lower(contractAddress) && n.tokenId == tokenId)
    case None =>
    case Some(i) =>
      assert rows[i] in rows;
  }

  /**
   * The preview counts every token of the lower-cased address, image or
   * not, and shows the image URLs, none null, of the newest three tokens
   * of the collection that have one: all of them when fewer than three
   * have one, never more than the count.
   */
  lemma {:induction false} CollectionPreviewEffect(rows: seq<Nft>, collectionAddress: string)
    ensures var a, r := Lower(collectionAddress), CollectionPreview(rows, collectionAddress);
      var imaged := Select(rows, (n: Nft) => n.contractAddress == a && n.imageUrl.Some?, CreatedAt);
      && r.collectionAddress == a
      && r.totalCount == |Filter(rows, (n: Nft) => n.contractAddress == a)|
      && |r.previewImages| == (if |imaged| < 3 then |imaged| else 3)
      && |r.previewImages| <= r.totalCount
      && (forall k :: 0 <= k < |r.previewImages| ==>
            imaged[k] in rows && imaged[k].contractAddress == a && imaged[k].imageUrl == Some(r.previewImages[k]))
      && (forall i, j :: 0 <= i < j < |r.previewImages| ==> imaged[i].createdAt >= imaged[j].createdAt)
  {
    var a := Lower(collectionAddress);
    var p := (n: Nft) => n.contractAddress == a;
    var q := (n: Nft) => n.contractAddress == a && n.imageUrl.Some?;
    FilterMonotone(rows, p, q);
    var imaged := Select(rows, q, CreatedAt);
    var r := CollectionPreview(rows, collectionAddress);
    assert |imaged| == |Filter(rows, q)| <= |Filter(rows, p)|;
    assert |r.previewImages| == |Take(imaged, 3)|;
  }
}

=== FILE: ordering.dfy ===
/**
 * Filtering, ordering and truncating rows the way the store's queries do:
 * `where`, `orderBy: { createdAt: 'desc' }` and `take`.
 */
module Ordering {
  import opened Wrappers

  /** The rows that satisfy `p`, in their original order. */
  function Filter<T(==,!new)>(s: seq<T>, p: T -> bool): (r: seq<T>)
    ensures |r| <= |s|
    ensures forall x :: x in r <==> x in s && p(x)
    ensures forall k :: 0 <= k < |r| ==> p(r[k])
  {
    if s == [] then []
    else (if p(s[0]) then [s[0]] else []) + Filter(s[1..], p)
  }

  lemma {:induction false} FilterMultiset<T(!new)>(s: seq<T>, p: T -> bool)
    ensures multiset(Filter(s, p)) <= multiset(s)
    ensures forall x :: p(x) ==> multiset(Filter(s, p))[x] == multiset(s)[x]
  {
    if s != [] {
      FilterMultiset(s[1..], p);
      assert s == [s[0]] + s[1..];
    }
  }

  /** Filtering by a weaker condition keeps at least as many rows. */
  lemma {:induction false} FilterMonotone<T(!new)>(s: seq<T>, p: T -> bool, q: T -> bool)
    requires forall x :: q(x) ==> p(x)
    ensures |Filter(s, q)| <= |Filter(s, p)|
  {
    if s != [] {
      FilterMonotone(s[1..], p, q);
    }
  }

  /** The position of the first row satisfying `p`: `findFirst`, or `findUnique` on a unique key. */
  function FirstIndex<T>(rows: seq<T>, p: T -> bool): (r: Option<nat>)
    ensures r.Some? ==> r.value < |rows| && p(rows[r.value])
    ensures r.Some? ==> forall j :: 0 <= j < r.value ==> !p(rows[j])
    ensures r.None? ==> forall j :: 0 <= j < |rows| ==> !p(rows[j])
  {
    if rows == [] then None
    else if p(rows[0]) then Some(0)
    else
      match FirstIndex(rows[1..], p)
      case None => None
      case Some(i) => Some(i + 1)
  }

  /** Ordered by `key`, largest first: newest first when `key` is `createdAt`. */
  predicate NewestFirst<T>(s: seq<T>, key: T -> int) {
    forall i, j :: 0 <= i < j < |s| ==> key(s[i]) >= key(s[j])
  }

  /** Puts `x` into a newest-first sequence ahead of every row not newer than it. */
  function Insert<T(==)>(x: T, s: seq<T>, key: T -> int): (r: seq<T>)
    requires NewestFirst(s, key)
    ensures NewestFirst(r, key)
    ensures multiset(r) == multiset(s) + multiset{x}
    ensures |r| == |s| + 1
    ensures r[0] == x || (s != [] && r[0] == s[0])
  {
    if s == [] || key(x) >= key(s[0]) then [x] + s
    else
      assert s == [s[0]] + s[1..];
      var t := Insert(x, s[1..], key);
      assert key(t[0]) <= key(s[0]);
      assert forall k :: 0 <= k < |t| ==> key(t[k]) <= key(t[0]);
      [s[0]] + t
  }

  /**
   * The rows of `s` rearranged newest first; rows of equal key keep their
   * order in `s`.
   */
  function SortNewestFirst<T(==)>(s: seq<T>, key: T -> int): (r: seq<T>)
    ensures NewestFirst(r, key)
    ensures multiset(r) == multiset(s)
    ensures |r| == |s|
  {
    if s == [] then []
    else
      assert s == [s[0]] + s[1..];
      Insert(s[0], SortNewestFirst(s[1..], key), key)
  }

  /**
   * `findMany` with a `where` and `orderBy: { createdAt: 'desc' }`: the rows
   * satisfying `p`, newest first, ties in table order.
   */
  function Select<T(==,!new)>(rows: seq<T>, p: T -> bool, key: T -> int): (r: seq<T>)
    ensures NewestFirst(r, key)
    ensures |r| == |Filter(rows, p)|
    ensures forall k :: 0 <= k < |r| ==> r[k] in rows && p(r[k])
  {
    var f := Filter(rows, p);
    var r := SortNewestFirst(f, key);
    SameMembers(r, f);
    r
  }

  lemma SameMembers<T>(a: seq<T>, b: seq<T>)
    requires multiset(a) == multiset(b)
    ensures forall k :: 0 <= k < |a| ==> a[k] in b
  {
    forall k | 0 <= k < |a|
      ensures a[k] in b
    {
      SameElements(a, b, a[k]);
    }
  }

  /**
   * A query returns every matching row, as often as the table holds it,
   * and nothing else, newest first.
   */
  lemma SelectExactly<T(!new)>(rows: seq<T>, p: T -> bool, key: T -> int)
    ensures var r := Select(rows, p, key);
      && NewestFirst(r, key)
      && |r| == |Filter(rows, p)|
      && (forall x :: x in r <==> x in rows && p(x))
      && (forall x :: p(x) ==> multiset(r)[x] == multiset(rows)[x])
      && (forall x :: !p(x) ==> multiset(r)[x] == 0)
  {
    var f := Filter(rows, p);
    var r := Select(rows, p, key);
    FilterMultiset(rows, p);
    forall x
      ensures x in r <==> x in f
    {
      SameElements(r, f, x);
    }
    forall x | !p(x)
      ensures multiset(r)[x] == 0
    {
      assert x !in f;
    }
  }

  /** A filter every row passes keeps the whole table. */
  lemma {:induction false} FilterAll<T(!new)>(rows: seq<T>, p: T -> bool)
    requires forall x :: p(x)
    ensures Filter(rows, p) == rows
  {
    if rows != [] {
      FilterAll(rows[1..], p);
      assert rows == [rows[0]] + rows[1..];
    }
  }

  /** A newest-first query with each row mapped to its response: `findMany(...).map(f)`. */
  function SelectMap<T(==,!new), D>(rows: seq<T>, p: T -> bool, key: T -> int, f: T -> D): (r: seq<D>)
    ensures |r| == |Filter(rows, p)|
  {
    var q := Select(rows, p, key);
    seq(|q|, k requires 0 <= k < |q| => f(q[k]))
  }

  /**
   * A mapped query holds one response per matching row, in the order of
   * the newest-first query: the response of every matching row is there,
   * and every response is that of a matching row.
   */
  lemma SelectMapExactly<T(!new), D>(rows: seq<T>, p: T -> bool, key: T -> int, f: T -> D)
    ensures var r, q := SelectMap(rows, p, key, f), Select(rows, p, key);
      && |r| == |q| == |Filter(rows, p)|
      && NewestFirst(q, key)
      && (forall k :: 0 <= k < |r| ==> r[k] == f(q[k]) && q[k] in rows && p(q[k]))
      && (forall x :: x in rows && p(x) ==> f(x) in r)
      && (forall k :: 0 <= k < |r| ==> exists x :: x in rows && p(x) && r[k] == f(x))
  {
    var q := Select(rows, p, key);
    var r := SelectMap(rows, p, key, f);
    assert NewestFirst(q, key) by {
      SelectExactly(rows, p, key);
    }
    forall x | x in rows && p(x)
      ensures f(x) in r
    {
      assert x in q by {
        SelectExactly(rows, p, key);
      }
      var k :| 0 <= k < |q| && q[k] == x;
      assert r[k] == f(x);
    }
    forall k | 0 <= k < |r|
      ensures exists x :: x in rows && p(x) && r[k] == f(x)
    {
      assert q[k] in rows && p(q[k]) && r[k] == f(q[k]);
    }
  }

  /** `take: n`: the first `n` rows, or all of them when there are fewer. */
  function Take<T>(s: seq<T>, n: nat): (r: seq<T>)
    ensures |r| == if |s| <= n then |s| else n
    ensures r == s[..|r|]
  {
    if |s| <= n then s else s[..n]
  }

  /** The same rows, in any order, hold the same elements. */
  lemma SameElements<T>(a: seq<T>, b: seq<T>, x: T)
    requires multiset(a) == multiset(b)
    ensures x in a <==> x in b
  {
    assert x in a <==> x in multiset(a);
    assert x in b <==> x in multiset(b);
  }
}

=== FILE: reconcile.dfy ===
/**
 * What one indexer tick does to the store, as functions: the three event
 * handlers, the fold of a handler over a batch of fetched logs, the fold
 * over the tracked collections, the three phases in their fixed order, and
 * the cursor rule around them. The class in `Indexer` is proved to carry
 * out exactly these functions; the properties of the indexer are lemmas
 * about them.
 */
module Reconcile {
  import opened Wrappers
  import opened Text
  import opened Store

  /**
   * A contract event as the ABI decoder hands it over (addresses as
   * emitted). The collection type is taken to arrive as the standard's
   * name, "ERC721" or "ERC1155", the text the listings filter on.
   */
  datatype Event =
    | CollectionCreated(creator: Address, collection: Address, collectionType: string)
    | Transfer(from: Address, to: Address, tokenId: nat)
    | TransferSingle(operator: Address, from: Address, to: Address, id: nat, value: nat)

  /** The event signature a log query filters on. */
  datatype Topic = CollectionCreatedTopic | TransferTopic | TransferSingleTopic

  /**
   * The blockchain node as seen from the indexer. `getLogs` is the log
   * query for one address, topic and block range, already decoded: `None`
   * when the node call fails, otherwise one entry per log, `None` for a log
   * the ABI cannot parse. `name` and `symbol` are the contract reads, `None`
   * when the call fails.
   */
  datatype Node = Node(
    getLogs: (Address, Topic, int, int) -> Option<seq<Option<Event>>>,
    name: Address -> Option<string>,
    symbol: Address -> Option<string>)

  /** What makes a tick give up. */
  datatype IndexError =
    | NodeError(address: Address, topic: Topic)
    | MissingToken(key: TokenKey)
    | UnexpectedEvent(topic: Topic)

  /** The store after some writes, and the error that stopped them, if any. */
  datatype Outcome = Outcome(store: Store, error: Option<IndexError>)

  /** Which handler a batch of logs goes to: the factory's, or a collection's. */
  datatype Phase = Factory | Erc721(contract: Address) | Erc1155(contract: Address)

  datatype Kind = Kind721 | Kind1155

  function TopicOf(phase: Phase): Topic {
    match phase
    case Factory => CollectionCreatedTopic
    case Erc721(_) => TransferTopic
    case Erc1155(_) => TransferSingleTopic
  }

  function StandardOf(kind: Kind): string {
    match kind
    case Kind721 => "ERC721"
    case Kind1155 => "ERC1155"
  }

  function PhaseOf(kind: Kind, contract: Address): Phase {
    match kind
    case Kind721 => Erc721(contract)
    case Kind1155 => Erc1155(contract)
  }

  // ---------------------------------------------------------------------------
  // CollectionCreated
  // ---------------------------------------------------------------------------

  /**
   * The name and symbol a new collection row gets: the contract's own, or
   * the placeholders when a read fails. `symbol()` is only read once
   * `name()` has answered, so a failing `symbol()` keeps the real name.
   */
  function ContractNames(node: Node, collection: Address): (string, string) {
    match node.name(collection)
    case None => ("Unknown Collection", "UNK")
    case Some(n) => (n, node.symbol(collection).GetOr("UNK"))
  }

  /** Upsert of the collection row with an empty update. */
  function CreateCollection(s: Store, creator: Address, collection: Address, standard: string,
                            names: (string, string), now: nat): (r: Store)
  {
    var c := Lower(collection);
    if c in s.collections then s
    else
      var row := Collection(c, ChainId, standard, Lower(creator), 0, Some(names.0), Some(names.1), now);
      s.(collections := s.collections[c := row], collectionOrder := s.collectionOrder + [c])
  }

  // ---------------------------------------------------------------------------
  // ERC-721 Transfer
  // ---------------------------------------------------------------------------

  /**
   * A mint (from the zero address) upserts the token: a new row owned and
   * created by `to`, or only a new owner for a row already there. Any other
   * transfer updates the owner of a row that must exist.
   */
  function Transfer721(s: Store, contract: Address, from: Address, to: Address, tokenId: nat,
                       now: nat): (r: Outcome)
    ensures r.store.collections == s.collections && r.store.collectionOrder == s.collectionOrder
  {
    var f, t := Lower(from), Lower(to);
    var key := TokenKey(contract, Decimal(tokenId));
    if key in s.nfts then
      Outcome(s.(nfts := s.nfts[key := s.nfts[key].(ownerAddress := t)]), None)
    else if f == ZeroAddress then
      var row := Nft(contract, key.tokenId, ChainId, t, t, "", None, None, None, now);
      Outcome(s.(nfts := s.nfts[key := row]), None)
    else
      Outcome(s, Some(MissingToken(key)))
  }

  // ---------------------------------------------------------------------------
  // ERC-1155 TransferSingle
  // ---------------------------------------------------------------------------

  /** Upsert of the edition row with an empty update. */
  function UpsertEdition(s: Store, key: TokenKey, creator: Address, now: nat): Store {
    if key in s.editions then s
    else s.(editions := s.editions[key := Edition(key.contractAddress, key.tokenId, ChainId, creator, 0, "", now)])
  }

  /** `updateMany` with a decrement: no row, no change. */
  function Debit(s: Store, key: BalanceKey, amount: int): Store {
    if key in s.balances then s.(balances := s.balances[key := s.balances[key] - amount]) else s
  }

  /** Upsert with an increment: add to the row, or create it at `amount`. */
  function Credit(s: Store, key: BalanceKey, amount: int): Store {
    s.(balances := s.balances[key := if key in s.balances then s.balances[key] + amount else amount])
  }

  function Transfer1155(s: Store, contract: Address, from: Address, to: Address, id: nat,
                        amount: nat, now: nat): (r: Store)
    ensures r.collections == s.collections && r.collectionOrder == s.collectionOrder
  {
    var f, t := Lower(from), Lower(to);
    var key := TokenKey(contract, Decimal(id));
    var s1 := UpsertEdition(s, key, if f == ZeroAddress then t else f, now);
    var s2 := if f != ZeroAddress then Debit(s1, BalanceKey(key, f), amount) else s1;
    Credit(s2, BalanceKey(key, t), amount)
  }

  // ---------------------------------------------------------------------------
  // One log, a batch of logs, the tracked collections
  // ---------------------------------------------------------------------------

  /**
   * One fetched log. An unparsable log is skipped; an event without the
   * arguments the handler reads makes the handler throw.
   */
  function Step(s: Store, phase: Phase, log: Option<Event>, node: Node, now: nat): Outcome {
    match log
    case None => Outcome(s, None)
    case Some(e) =>
      match (phase, e)
      case (Factory, CollectionCreated(creator, collection, ty)) =>
        Outcome(CreateCollection(s, creator, collection, ty, ContractNames(node, Lower(collection)), now), None)
      case (Erc721(c), Transfer(from, to, tokenId)) =>
        Transfer721(s, c, from, to, tokenId, now)
      case (Erc1155(c), TransferSingle(_, from, to, id, value)) =>
        Outcome(Transfer1155(s, c, from, to, id, value, now), None)
      case _ => Outcome(s, Some(UnexpectedEvent(TopicOf(phase))))
  }

  /** The logs handled in order until one throws; the writes before it stay. */
  function RunLogs(s: Store, phase: Phase, logs: seq<Option<Event>>, node: Node, now: nat): Outcome
    decreases |logs|
  {
    if logs == [] then Outcome(s, None)
    else
      var o := RunLogs(s, phase, logs[..|logs| - 1], node, now);
      if o.error.Some? then o else Step(o.store, phase, logs[|logs| - 1], node, now)
  }

  /** One `getLogs` call for `address` and the handling of what it returns. */
  function FetchAndRun(s: Store, phase: Phase, address: Address, from: int, to: int,
                       node: Node, now: nat): Outcome
  {
    match node.getLogs(address, TopicOf(phase), from, to)
    case None => Outcome(s, Some(NodeError(address, TopicOf(phase))))
    case Some(logs) => RunLogs(s, phase, logs, node, now)
  }

  /** The collections of one standard, one after another, each with its own log query. */
  function RunCollections(s: Store, kind: Kind, cols: seq<Address>, from: int, to: int,
                          node: Node, now: nat): Outcome
    decreases |cols|
  {
    if cols == [] then Outcome(s, None)
    else
      var o := RunCollections(s, kind, cols[..|cols| - 1], from, to, node, now);
      var c := cols[|cols| - 1];
      if o.error.Some? then o else FetchAndRun(o.store, PhaseOf(kind, c), c, from, to, node, now)
  }

  /**
   * The three phases over one block range, in their fixed order: the
   * factory's CollectionCreated logs, then the Transfer logs of every
   * ERC721 collection, then the TransferSingle logs of every ERC1155
   * collection. Each phase lists the collections afresh, so a collection
   * created by phase 1 is searched by phases 2 and 3.
   */
  function Phases(s: Store, from: int, to: int, node: Node, factory: Address, now: nat): Outcome {
    var o1 := FetchAndRun(s, Factory, factory, from, to, node, now);
    if o1.error.Some? then o1
    else
      var o2 := RunCollections(o1.store, Kind721, Listed(o1.store, "ERC721"), from, to, node, now);
      if o2.error.Some? then o2
      else RunCollections(o2.store, Kind1155, Listed(o2.store, "ERC1155"), from, to, node, now)
  }

  // ---------------------------------------------------------------------------
  // The tick
  // ---------------------------------------------------------------------------

  /** The indexer's state: the last processed block (0 = not yet set) and the store. */
  datatype Indexer = Indexer(cursor: int, store: Store)

  datatype TickStatus = Bootstrapped | Indexed | Abandoned(error: IndexError)

  datatype TickResult = TickResult(state: Indexer, status: TickStatus)

  /** The block range a tick for block `b` works on; none while the cursor is unset. */
  function RangeOf(st: Indexer, b: int): Option<(int, int)> {
    if st.cursor == 0 then None else Some((st.cursor + 1, b))
  }

  /**
   * One block notification. With the cursor unset it only sets the cursor
   * to `b - 1`. Otherwise it runs the three phases over the range and moves
   * the cursor to `b` only if none of them threw; writes made before a
   * throw are kept.
   */
  function Tick(st: Indexer, b: int, node: Node, factory: Address, now: nat): TickResult {
    match RangeOf(st, b)
    case None => TickResult(Indexer(b - 1, st.store), Bootstrapped)
    case Some((from, to)) =>
      var o := Phases(st.store, from, to, node, factory, now);
      match o.error
      case None => TickResult(Indexer(b, o.store), Indexed)
      case Some(e) => TickResult(Indexer(st.cursor, o.store), Abandoned(e))
  }
}

=== FILE: reconcile_props.dfy ===
/**
 * Properties of the reconciler and the tick: what each handler writes and
 * leaves alone, which handlers are idempotent and which are not, what the
 * balance arithmetic does to an edition's total, that unparsable logs are
 * skipped, that the phase order lets a new collection's tokens be indexed
 * in the same tick, that the store stays well-formed, and the cursor rule.
 */
module ReconcileProps {
  import opened Wrappers
  import opened Text
  import opened Store
  import opened Ledger
  import opened Reconcile

  // ---------------------------------------------------------------------------
  // CollectionCreated
  // ---------------------------------------------------------------------------

  /**
   * A known contract leaves the store as it was; a new one gets a row with
   * the lower-cased creator, the event's standard, chain 31337, royalty 0
   * and the names read from the contract, appended to the insertion order.
   */
  lemma CollectionUpsert(s: Store, creator: Address, collection: Address, standard: string,
                         names: (string, string), now: nat)
    ensures var r, c := CreateCollection(s, creator, collection, standard, names, now), Lower(collection);
      && (c in s.collections ==> r == s)
      && (c !in s.collections ==>
            && r.collections == s.collections[c := r.collections[c]]
            && r.collections[c].creatorAddress == Lower(creator)
            && r.collections[c].standard == standard
            && r.collections[c].chainId == 31337
            && r.collections[c].royaltyFee == 0
            && r.collections[c].name == Some(names.0)
            && r.collections[c].symbol == Some(names.1)
            && r.collectionOrder == s.collectionOrder + [c]
            && r.nfts == s.nfts && r.editions == s.editions && r.balances == s.balances)
  {
  }

  /** Placeholders replace what the contract reads fail to deliver. */
  lemma ContractNamesFallback(node: Node, a: Address)
    ensures node.name(a).None? ==> ContractNames(node, a) == ("Unknown Collection", "UNK")
    ensures node.name(a).Some? && node.symbol(a).None? ==>
      ContractNames(node, a) == (node.name(a).value, "UNK")
    ensures node.name(a).Some? && node.symbol(a).Some? ==>
      ContractNames(node, a) == (node.name(a).value, node.symbol(a).value)
  {
  }

  // ---------------------------------------------------------------------------
  // ERC-721 Transfer
  // ---------------------------------------------------------------------------

  /** Minting token `tokenId` to `to` creates a row owned and created by `to`, with an empty URI. */
  lemma MintCreatesToken(s: Store, contract: Address, from: Address, to: Address, tokenId: nat, now: nat)
    requires Lower(from) == ZeroAddress
    requires TokenKey(contract, Decimal(tokenId)) !in s.nfts
    ensures var o, key := Transfer721(s, contract, from, to, tokenId, now), TokenKey(contract, Decimal(tokenId));
      && o.error == None
      && key in o.store.nfts
      && o.store.nfts[key].ownerAddress == Lower(to)
      && o.store.nfts[key].creatorAddress == Lower(to)
      && o.store.nfts[key].metadataUri == ""
      && o.store.nfts[key].chainId == 31337
      && o.store.nfts.Keys == s.nfts.Keys + {key}
      && (forall k :: k in s.nfts ==> o.store.nfts[k] == s.nfts[k])
      && o.store.collections == s.collections && o.store.editions == s.editions
      && o.store.balances == s.balances
  {
  }

  /** Observing the same mint twice gives the same store as observing it once. */
  lemma MintIdempotent(s: Store, contract: Address, from: Address, to: Address, tokenId: nat, now: nat)
    requires Lower(from) == ZeroAddress
    ensures var o := Transfer721(s, contract, from, to, tokenId, now);
      o.error == None && Transfer721(o.store, contract, from, to, tokenId, now) == o
  {
    var key := TokenKey(contract, Decimal(tokenId));
    var o := Transfer721(s, contract, from, to, tokenId, now);
    assert key in o.store.nfts && o.store.nfts[key].ownerAddress == Lower(to);
    assert o.store.nfts[key := o.store.nfts[key].(ownerAddress := Lower(to))] == o.store.nfts;
  }

  /**
   * Any Transfer of a token already stored, a mint included, only sets its
   * owner to `to`: the upsert's update and the update both write the owner
   * alone.
   */
  lemma KnownTokenOwnerOnly(s: Store, contract: Address, from: Address, to: Address, tokenId: nat, now: nat)
    requires TokenKey(contract, Decimal(tokenId)) in s.nfts
    ensures var o, key := Transfer721(s, contract, from, to, tokenId, now), TokenKey(contract, Decimal(tokenId));
      && o.error == None
      && o.store.nfts.Keys == s.nfts.Keys
      && o.store.nfts[key] == s.nfts[key].(ownerAddress := Lower(to))
      && (forall k :: k in s.nfts && k != key ==> o.store.nfts[k] == s.nfts[k])
      && o.store.collections == s.collections && o.store.editions == s.editions
      && o.store.balances == s.balances
  {
  }

  /**
   * A transfer that is not a mint sets the owner of an existing token to
   * `to` and changes nothing else; for a token never minted it throws and
   * writes nothing.
   */
  lemma TransferMovesOwnerOnly(s: Store, contract: Address, from: Address, to: Address, tokenId: nat, now: nat)
    requires Lower(from) != ZeroAddress
    ensures var o, key := Transfer721(s, contract, from, to, tokenId, now), TokenKey(contract, Decimal(tokenId));
      && (key in s.nfts ==>
            && o.error == None
            && o.store.nfts.Keys == s.nfts.Keys
            && o.store.nfts[key].ownerAddress == Lower(to)
            && o.store.nfts[key].(ownerAddress := s.nfts[key].ownerAddress) == s.nfts[key]
            && (forall k :: k in s.nfts && k != key ==> o.store.nfts[k] == s.nfts[k])
            && o.store.collections == s.collections && o.store.editions == s.editions
            && o.store.balances == s.balances)
      && (key !in s.nfts ==> o.error == Some(MissingToken(key)) && o.store == s)
  {
  }

  /** After any Transfer that succeeds, the token's owner is that transfer's `to`. */
  lemma OwnerIsLastRecipient(s: Store, contract: Address, from: Address, to: Address, tokenId: nat, now: nat)
    ensures var o, key := Transfer721(s, contract, from, to, tokenId, now), TokenKey(contract, Decimal(tokenId));
      o.error == None ==> key in o.store.nfts && o.store.nfts[key].ownerAddress == Lower(to)
  {
  }

  // ---------------------------------------------------------------------------
  // ERC-1155 TransferSingle
  // ---------------------------------------------------------------------------

  /**
   * The edition row is created on first sight, by the minter's recipient or
   * else the sender, with a supply of 0; an existing edition row is never
   * touched again.
   */
  lemma EditionRowFixedAtFirstSight(s: Store, contract: Address, from: Address, to: Address, id: nat,
                                    amount: nat, now: nat)
    ensures var r, key := Transfer1155(s, contract, from, to, id, amount, now), TokenKey(contract, Decimal(id));
      && r.editions.Keys == s.editions.Keys + {key}
      && (forall k :: k in s.editions ==> r.editions[k] == s.editions[k])
      && (key !in s.editions ==>
            && r.editions[key].creatorAddress == (if Lower(from) == ZeroAddress then Lower(to) else Lower(from))
            && r.editions[key].totalSupply == 0)
      && r.collections == s.collections && r.nfts == s.nfts
  {
    var f, t := Lower(from), Lower(to);
    var key := TokenKey(contract, Decimal(id));
    var s1 := UpsertEdition(s, key, if f == ZeroAddress then t else f, now);
    assert s1.editions.Keys == s.editions.Keys + {key};
    var s2 := if f != ZeroAddress then Debit(s1, BalanceKey(key, f), amount) else s1;
    assert s2.editions == s1.editions && s2.collections == s.collections && s2.nfts == s.nfts;
    assert Credit(s2, BalanceKey(key, t), amount).editions == s1.editions;
  }

  /** The rows of one edition's balances. */
  ghost function BalancesOf(b: map<BalanceKey, int>, e: TokenKey): map<BalanceKey, int> {
    map k | k in b && k.edition == e :: b[k]
  }

  /** The sum of an edition's balances. */
  ghost function EditionTotal(s: Store, e: TokenKey): int {
    Sum(BalancesOf(s.balances, e))
  }

  lemma BalancesOfUpdate(b: map<BalanceKey, int>, k: BalanceKey, v: int)
    ensures BalancesOf(b[k := v], k.edition) == BalancesOf(b, k.edition)[k := v]
  {
  }

  lemma {:induction false} TotalAfterSet(s: Store, k: BalanceKey, v: int)
    ensures EditionTotal(s.(balances := s.balances[k := v]), k.edition)
         == EditionTotal(s, k.edition) - (if k in s.balances then s.balances[k] else 0) + v
  {
    BalancesOfUpdate(s.balances, k, v);
    SumUpdate(BalancesOf(s.balances, k.edition), k, v);
  }

  lemma {:induction false} DebitTotal(s: Store, k: BalanceKey, amount: int)
    ensures EditionTotal(Debit(s, k, amount), k.edition)
         == EditionTotal(s, k.edition) - (if k in s.balances then amount else 0)
  {
    if k in s.balances {
      TotalAfterSet(s, k, s.balances[k] - amount);
    }
  }

  lemma {:induction false} CreditTotal(s: Store, k: BalanceKey, amount: int)
    ensures EditionTotal(Credit(s, k, amount), k.edition) == EditionTotal(s, k.edition) + amount
  {
    TotalAfterSet(s, k, if k in s.balances then s.balances[k] + amount else amount);
  }

  /**
   * What one TransferSingle does to the edition's total: a transfer whose
   * sender holds a row keeps it, a mint raises it by the amount, and a
   * transfer from a sender without a row also raises it by the amount (the
   * debit finds nothing to decrement).
   */
  lemma {:induction false} TransferSingleTotal(s: Store, contract: Address, from: Address, to: Address,
                                               id: nat, amount: nat, now: nat)
    ensures var r, key := Transfer1155(s, contract, from, to, id, amount, now), TokenKey(contract, Decimal(id));
      && (Lower(from) != ZeroAddress && BalanceKey(key, Lower(from)) in s.balances ==>
            EditionTotal(r, key) == EditionTotal(s, key))
      && (Lower(from) == ZeroAddress ==> EditionTotal(r, key) == EditionTotal(s, key) + amount)
      && (Lower(from) != ZeroAddress && BalanceKey(key, Lower(from)) !in s.balances ==>
            EditionTotal(r, key) == EditionTotal(s, key) + amount)
  {
    var f, t := Lower(from), Lower(to);
    var key := TokenKey(contract, Decimal(id));
    var s1 := UpsertEdition(s, key, if f == ZeroAddress then t else f, now);
    assert s1.balances == s.balances;
    assert EditionTotal(s1, key) == EditionTotal(s, key);
    var s2 := if f != ZeroAddress then Debit(s1, BalanceKey(key, f), amount) else s1;
    if f != ZeroAddress {
      DebitTotal(s1, BalanceKey(key, f), amount);
    }
    CreditTotal(s2, BalanceKey(key, t), amount);
  }

  /**
   * A transfer moves `amount` from the sender's row to the recipient's row
   * (distinct owners, sender's row present) and touches no other row.
   */
  lemma TransferSingleMovesBalance(s: Store, contract: Address, from: Address, to: Address,
                                   id: nat, amount: nat, now: nat)
    requires Lower(from) != ZeroAddress && Lower(from) != Lower(to)
    requires BalanceKey(TokenKey(contract, Decimal(id)), Lower(from)) in s.balances
    ensures var r, key := Transfer1155(s, contract, from, to, id, amount, now), TokenKey(contract, Decimal(id));
      var kf, kt := BalanceKey(key, Lower(from)), BalanceKey(key, Lower(to));
      && r.balances[kf] == s.balances[kf] - amount
      && r.balances[kt] == (if kt in s.balances then s.balances[kt] else 0) + amount
      && (forall k :: k in s.balances && k != kf && k != kt ==> k in r.balances && r.balances[k] == s.balances[k])
      && r.balances.Keys == s.balances.Keys + {kt}
  {
  }

  /**
   * TransferSingle is not idempotent: observing the same log twice credits
   * the recipient twice.
   */
  lemma TransferSingleReplayCreditsTwice(s: Store, contract: Address, from: Address, to: Address,
                                         id: nat, amount: nat, now: nat)
    requires Lower(from) != Lower(to)
    ensures var key := TokenKey(contract, Decimal(id));
      var kt := BalanceKey(key, Lower(to));
      var once := Transfer1155(s, contract, from, to, id, amount, now);
      var twice := Transfer1155(once, contract, from, to, id, amount, now);
      twice.balances[kt] == (if kt in s.balances then s.balances[kt] else 0) + 2 * amount
  {
    var once := Transfer1155(s, contract, from, to, id, amount, now);
    TransferSingleCredits(s, contract, from, to, id, amount, now);
    TransferSingleCredits(once, contract, from, to, id, amount, now);
  }

  /** The recipient's row gains `amount` when the sender is someone else. */
  lemma TransferSingleCredits(s: Store, contract: Address, from: Address, to: Address,
                              id: nat, amount: nat, now: nat)
    requires Lower(from) != Lower(to)
    ensures var kt := BalanceKey(TokenKey(contract, Decimal(id)), Lower(to));
      var r := Transfer1155(s, contract, from, to, id, amount, now);
      kt in r.balances && r.balances[kt] == (if kt in s.balances then s.balances[kt] else 0) + amount
  {
    var f, t := Lower(from), Lower(to);
    var key := TokenKey(contract, Decimal(id));
    var kt := BalanceKey(key, t);
    var s1 := UpsertEdition(s, key, if f == ZeroAddress then t else f, now);
    assert s1.balances == s.balances;
    var s2 := if f != ZeroAddress then Debit(s1, BalanceKey(key, f), amount) else s1;
    assert BalanceKey(key, f) != kt;
    assert (kt in s2.balances) == (kt in s.balances);
    assert kt in s2.balances ==> s2.balances[kt] == s.balances[kt];
  }

  /** A burn (to the zero address) credits a balance row owned by the zero address. */
  lemma BurnCreditsZeroAddress(s: Store, contract: Address, from: Address, to: Address,
                               id: nat, amount: nat, now: nat)
    requires Lower(to) == ZeroAddress
    ensures var r := Transfer1155(s, contract, from, to, id, amount, now);
      BalanceKey(TokenKey(contract, Decimal(id)), ZeroAddress) in r.balances
  {
  }

  // ---------------------------------------------------------------------------
  // Batches of logs
  // ---------------------------------------------------------------------------

  /** The logs that parsed, in their order. */
  function Parsed(logs: seq<Option<Event>>): (r: seq<Option<Event>>)
    ensures forall k :: 0 <= k < |r| ==> r[k].Some?
    decreases |logs|
  {
    if logs == [] then []
    else Parsed(logs[..|logs| - 1]) + (if logs[|logs| - 1].Some? then [logs[|logs| - 1]] else [])
  }

  /** A log that fails to parse is skipped: the batch runs as if it were not there. */
  lemma {:induction false} UnparsedLogsSkipped(s: Store, phase: Phase, logs: seq<Option<Event>>, node: Node, now: nat)
    ensures RunLogs(s, phase, logs, node, now) == RunLogs(s, phase, Parsed(logs), node, now)
    decreases |logs|
  {
    if logs != [] {
      var n := |logs|;
      var pre := logs[..n - 1];
      UnparsedLogsSkipped(s, phase, pre, node, now);
      assert Parsed(logs) == Parsed(pre) + (if logs[n - 1].Some? then [logs[n - 1]] else []);
      var o := RunLogs(s, phase, pre, node, now);
      assert RunLogs(s, phase, logs, node, now) == if o.error.Some? then o else Step(o.store, phase, logs[n - 1], node, now);
      if logs[n - 1].Some? {
        var p := Parsed(logs);
        assert p[..|p| - 1] == Parsed(pre);
        assert p[|p| - 1] == logs[n - 1];
      } else {
        assert Parsed(logs) == Parsed(pre);
        assert Step(o.store, phase, None, node, now) == Outcome(o.store, None);
      }
    }
  }

  /** Once a log throws, the rest of the batch is not handled. */
  lemma {:induction false} RunLogsStops(s: Store, phase: Phase, logs: seq<Option<Event>>, node: Node, now: nat, k: nat)
    requires k <= |logs|
    requires RunLogs(s, phase, logs[..k], node, now).error.Some?
    ensures RunLogs(s, phase, logs, node, now) == RunLogs(s, phase, logs[..k], node, now)
    decreases |logs|
  {
    if k < |logs| {
      var pre := logs[..|logs| - 1];
      assert pre[..k] == logs[..k];
      RunLogsStops(s, phase, pre, node, now, k);
    } else {
      assert logs[..k] == logs;
    }
  }

  /** Once a collection's batch throws, the remaining collections are not searched. */
  lemma {:induction false} RunCollectionsStops(s: Store, kind: Kind, cols: seq<Address>, from: int, to: int,
                                               node: Node, now: nat, k: nat)
    requires k <= |cols|
    requires RunCollections(s, kind, cols[..k], from, to, node, now).error.Some?
    ensures RunCollections(s, kind, cols, from, to, node, now) == RunCollections(s, kind, cols[..k], from, to, node, now)
    decreases |cols|
  {
    if k < |cols| {
      var pre := cols[..|cols| - 1];
      assert pre[..k] == cols[..k];
      RunCollectionsStops(s, kind, pre, from, to, node, now, k);
    } else {
      assert cols[..k] == cols;
    }
  }

  /** Existing collection rows are never changed by the factory phase. */
  lemma {:induction false} FactoryKeepsRows(s: Store, logs: seq<Option<Event>>, node: Node, now: nat)
    ensures var r := RunLogs(s, Factory, logs, node, now).store;
      forall a :: a in s.collections ==> a in r.collections && r.collections[a] == s.collections[a]
    decreases |logs|
  {
    if logs != [] {
      FactoryKeepsRows(s, logs[..|logs| - 1], node, now);
    }
  }

  predicate CreatesCollection(log: Option<Event>, c: Address) {
    log.Some? && log.value.CollectionCreated? && Lower(log.value.collection) == c
  }

  /** A collection no log of the batch creates stays absent. */
  lemma {:induction false} FactoryOnlyCreatesNamed(s: Store, logs: seq<Option<Event>>, node: Node, now: nat, c: Address)
    requires c !in s.collections
    requires forall j :: 0 <= j < |logs| ==> !CreatesCollection(logs[j], c)
    ensures c !in RunLogs(s, Factory, logs, node, now).store.collections
    decreases |logs|
  {
    if logs != [] {
      FactoryOnlyCreatesNamed(s, logs[..|logs| - 1], node, now, c);
    }
  }

  /**
   * If the factory phase completes, a collection new to the store is
   * stored with the standard of the first log in the batch that creates it.
   */
  lemma {:induction false} FirstCreationDecides(s: Store, logs: seq<Option<Event>>, node: Node, now: nat, i: nat)
    requires i < |logs| && logs[i].Some? && logs[i].value.CollectionCreated?
    requires Lower(logs[i].value.collection) !in s.collections
    requires forall j :: 0 <= j < i ==> !CreatesCollection(logs[j], Lower(logs[i].value.collection))
    requires RunLogs(s, Factory, logs, node, now).error == None
    ensures var c, r := Lower(logs[i].value.collection), RunLogs(s, Factory, logs, node, now).store;
      c in r.collections && r.collections[c].standard == logs[i].value.collectionType
    decreases |logs|
  {
    var n := |logs|;
    var pre := logs[..n - 1];
    var c := Lower(logs[i].value.collection);
    var o := RunLogs(s, Factory, pre, node, now);
    assert o.error == None;
    if i == n - 1 {
      assert forall j :: 0 <= j < |pre| ==> pre[j] == logs[j];
      FactoryOnlyCreatesNamed(s, pre, node, now, c);
    } else {
      assert pre[i] == logs[i];
      assert forall j :: 0 <= j < i ==> pre[j] == logs[j];
      FirstCreationDecides(s, pre, node, now, i);
      FactoryKeepsRows(o.store, [logs[n - 1]], node, now);
      assert [logs[n - 1]][..0] == [];
    }
  }

  /** Token phases never touch the collection table. */
  lemma {:induction false} TokenLogsKeepCollections(s: Store, phase: Phase, logs: seq<Option<Event>>, node: Node, now: nat)
    requires !phase.Factory?
    ensures var r := RunLogs(s, phase, logs, node, now).store;
      r.collections == s.collections && r.collectionOrder == s.collectionOrder
    decreases |logs|
  {
    if logs != [] {
      TokenLogsKeepCollections(s, phase, logs[..|logs| - 1], node, now);
    }
  }

  lemma {:induction false} TokenPhaseKeepsCollections(s: Store, kind: Kind, cols: seq<Address>, from: int, to: int, node: Node, now: nat)
    ensures var r := RunCollections(s, kind, cols, from, to, node, now).store;
      r.collections == s.collections && r.collectionOrder == s.collectionOrder
    decreases |cols|
  {
    if cols != [] {
      var o := RunCollections(s, kind, cols[..|cols| - 1], from, to, node, now);
      TokenPhaseKeepsCollections(s, kind, cols[..|cols| - 1], from, to, node, now);
      var c := cols[|cols| - 1];
      match node.getLogs(c, TopicOf(PhaseOf(kind, c)), from, to)
      case None =>
      case Some(logs) => TokenLogsKeepCollections(o.store, PhaseOf(kind, c), logs, node, now);
    }
  }

  // ---------------------------------------------------------------------------
  // Well-formedness of the store
  // ---------------------------------------------------------------------------

  /** The collection a token batch belongs to is a stored one. */
  ghost predicate PhaseFits(s: Store, phase: Phase) {
    !phase.Factory? ==> phase.contract in s.collections
  }

  lemma {:induction false} CreateCollectionConsistent(s: Store, creator: Address, collection: Address,
                                                      standard: string, names: (string, string), now: nat)
    requires Consistent(s)
    ensures var r := CreateCollection(s, creator, collection, standard, names, now);
      Consistent(r) && s.collections.Keys <= r.collections.Keys
  {
    var c := Lower(collection);
    if c !in s.collections {
      var r := CreateCollection(s, creator, collection, standard, names, now);
      LowerIsLower(collection);
      LowerIsLower(creator);
      assert c !in s.collectionOrder;
      var o := r.collectionOrder;
      assert forall i :: 0 <= i < |s.collectionOrder| ==> o[i] == s.collectionOrder[i];
      assert o[|o| - 1] == c;
      assert OrderMatches(r);
    }
  }

  lemma PutNftConsistent(s: Store, k: TokenKey, row: Nft)
    requires Consistent(s) && k.contractAddress in s.collections
    requires row.contractAddress == k.contractAddress && row.tokenId == k.tokenId
    requires IsLower(row.ownerAddress) && IsLower(row.creatorAddress)
    ensures Consistent(s.(nfts := s.nfts[k := row]))
  {
  }

  lemma PutEditionConsistent(s: Store, k: TokenKey, row: Edition)
    requires Consistent(s) && k.contractAddress in s.collections
    requires row.contractAddress == k.contractAddress && row.tokenId == k.tokenId
    requires IsLower(row.creatorAddress)
    ensures Consistent(s.(editions := s.editions[k := row]))
  {
  }

  lemma PutBalanceConsistent(s: Store, k: BalanceKey, v: int)
    requires Consistent(s) && k.edition in s.editions && IsLower(k.owner)
    ensures Consistent(s.(balances := s.balances[k := v]))
  {
  }

  lemma {:induction false} Transfer721Consistent(s: Store, contract: Address, from: Address, to: Address,
                                                 tokenId: nat, now: nat)
    requires Consistent(s) && contract in s.collections
    ensures var r := Transfer721(s, contract, from, to, tokenId, now).store;
      Consistent(r) && r.collections == s.collections
  {
    LowerIsLower(to);
    var t := Lower(to);
    var key := TokenKey(contract, Decimal(tokenId));
    if key in s.nfts {
      PutNftConsistent(s, key, s.nfts[key].(ownerAddress := t));
    } else if Lower(from) == ZeroAddress {
      PutNftConsistent(s, key, Nft(contract, key.tokenId, ChainId, t, t, "", None, None, None, now));
    }
  }

  /** The edition upsert of a TransferSingle leaves the edition stored. */
  lemma UpsertEditionConsistent(s: Store, key: TokenKey, creator: Address, now: nat)
    requires Consistent(s) && key.contractAddress in s.collections && IsLower(creator)
    ensures var r := UpsertEdition(s, key, creator, now);
      Consistent(r) && r.collections == s.collections && key in r.editions
  {
    if key !in s.editions {
      PutEditionConsistent(s, key, Edition(key.contractAddress, key.tokenId, ChainId, creator, 0, "", now));
    }
  }

  /** The sender's decrement touches only a balance row that exists. */
  lemma DebitConsistent(s: Store, key: BalanceKey, amount: int)
    requires Consistent(s)
    ensures var r := Debit(s, key, amount);
      Consistent(r) && r.collections == s.collections && r.editions == s.editions
  {
    if key in s.balances {
      PutBalanceConsistent(s, key, s.balances[key] - amount);
    }
  }

  /** The recipient's increment or new row sits under a stored edition. */
  lemma CreditConsistent(s: Store, key: BalanceKey, amount: int)
    requires Consistent(s) && key.edition in s.editions && IsLower(key.owner)
    ensures var r := Credit(s, key, amount);
      Consistent(r) && r.collections == s.collections
  {
    PutBalanceConsistent(s, key, if key in s.balances then s.balances[key] + amount else amount);
  }

  lemma {:induction false} Transfer1155Consistent(s: Store, contract: Address, from: Address, to: Address,
                                                  id: nat, amount: nat, now: nat)
    requires Consistent(s) && contract in s.collections
    ensures var r := Transfer1155(s, contract, from, to, id, amount, now);
      Consistent(r) && r.collections == s.collections
  {
    LowerIsLower(to);
    LowerIsLower(from);
    var f, t := Lower(from), Lower(to);
    var key := TokenKey(contract, Decimal(id));
    var s1 := UpsertEdition(s, key, if f == ZeroAddress then t else f, now);
    UpsertEditionConsistent(s, key, if f == ZeroAddress then t else f, now);
    var s2 := if f != ZeroAddress then Debit(s1, BalanceKey(key, f), amount) else s1;
    DebitConsistent(s1, BalanceKey(key, f), amount);
    CreditConsistent(s2, BalanceKey(key, t), amount);
    assert Transfer1155(s, contract, from, to, id, amount, now) == Credit(s2, BalanceKey(key, t), amount);
  }

  lemma {:induction false} StepConsistent(s: Store, phase: Phase, log: Option<Event>, node: Node, now: nat)
    requires Consistent(s) && PhaseFits(s, phase)
    ensures var r := Step(s, phase, log, node, now).store;
      Consistent(r) && s.collections.Keys <= r.collections.Keys
  {
    match log
    case None =>
    case Some(e) =>
      match (phase, e)
      case (Factory, CollectionCreated(creator, collection, ty)) =>
        CreateCollectionConsistent(s, creator, collection, ty, ContractNames(node, Lower(collection)), now);
      case (Erc721(c), Transfer(from, to, tokenId)) =>
        Transfer721Consistent(s, c, from, to, tokenId, now);
      case (Erc1155(c), TransferSingle(_, from, to, id, value)) =>
        Transfer1155Consistent(s, c, from, to, id, value, now);
      case _ =>
  }

  lemma {:induction false} RunLogsConsistent(s: Store, phase: Phase, logs: seq<Option<Event>>, node: Node, now: nat)
    requires Consistent(s) && PhaseFits(s, phase)
    ensures var r := RunLogs(s, phase, logs, node, now).store;
      Consistent(r) && s.collections.Keys <= r.collections.Keys
    decreases |logs|
  {
    if logs != [] {
      var o := RunLogs(s, phase, logs[..|logs| - 1], node, now);
      RunLogsConsistent(s, phase, logs[..|logs| - 1], node, now);
      if o.error.None? {
        StepConsistent(o.store, phase, logs[|logs| - 1], node, now);
      }
    }
  }

  lemma {:induction false} FetchAndRunConsistent(s: Store, phase: Phase, address: Address, from: int, to: int,
                                                 node: Node, now: nat)
    requires Consistent(s) && PhaseFits(s, phase)
    ensures var r := FetchAndRun(s, phase, address, from, to, node, now).store;
      Consistent(r) && s.collections.Keys <= r.collections.Keys
  {
    match node.getLogs(address, TopicOf(phase), from, to)
    case None =>
    case Some(logs) => RunLogsConsistent(s, phase, logs, node, now);
  }

  lemma {:induction false} RunCollectionsConsistent(s: Store, kind: Kind, cols: seq<Address>, from: int, to: int,
                                                    node: Node, now: nat)
    requires Consistent(s)
    requires forall k :: 0 <= k < |cols| ==> cols[k] in s.collections
    ensures var r := RunCollections(s, kind, cols, from, to, node, now).store;
      Consistent(r) && s.collections.Keys <= r.collections.Keys
    decreases |cols|
  {
    if cols != [] {
      var pre := cols[..|cols| - 1];
      var o := RunCollections(s, kind, pre, from, to, node, now);
      RunCollectionsConsistent(s, kind, pre, from, to, node, now);
      var c := cols[|cols| - 1];
      if o.error.None? {
        FetchAndRunConsistent(o.store, PhaseOf(kind, c), c, from, to, node, now);
        assert RunCollections(s, kind, cols, from, to, node, now) == FetchAndRun(o.store, PhaseOf(kind, c), c, from, to, node, now);
      } else {
        assert RunCollections(s, kind, cols, from, to, node, now) == o;
      }
    }
  }

  lemma PhasesConsistent(s: Store, from: int, to: int, node: Node, factory: Address, now: nat)
    requires Consistent(s)
    ensures Consistent(Phases(s, from, to, node, factory, now).store)
  {
    var r := Phases(s, from, to, node, factory, now);
    var o1 := FetchAndRun(s, Factory, factory, from, to, node, now);
    FetchAndRunConsistent(s, Factory, factory, from, to, node, now);
    if o1.error.None? {
      var l1 := Listed(o1.store, "ERC721");
      RunCollectionsConsistent(o1.store, Kind721, l1, from, to, node, now);
      var o2 := RunCollections(o1.store, Kind721, l1, from, to, node, now);
      if o2.error.None? {
        var l2 := Listed(o2.store, "ERC1155");
        RunCollectionsConsistent(o2.store, Kind1155, l2, from, to, node, now);
        assert r == RunCollections(o2.store, Kind1155, l2, from, to, node, now);
      } else {
        assert r == o2;
      }
    } else {
      assert r == o1;
    }
  }

  /**
   * Every tick keeps the store well-formed: collection keys listed once in
   * insertion order, rows under their own keys, no token, edition or
   * balance without its parent row, and every address in lower case.
   */
  lemma TickConsistent(st: Indexer, b: int, node: Node, factory: Address, now: nat)
    requires Consistent(st.store)
    ensures Consistent(Tick(st, b, node, factory, now).state.store)
  {
    if st.cursor != 0 {
      PhasesConsistent(st.store, st.cursor + 1, b, node, factory, now);
    }
  }

  // ---------------------------------------------------------------------------
  // Phase order
  // ---------------------------------------------------------------------------

  /**
   * Collections created by phase 1 are searched by the later phases: once
   * the factory phase completes, a new collection whose first creating log
   * names ERC721 (ERC1155) is in the list phase 2 (phase 3) walks.
   */
  lemma NewCollectionReachesItsPhase(s: Store, from: int, to: int, node: Node, factory: Address, now: nat,
                                     logs: seq<Option<Event>>, i: nat)
    requires Consistent(s)
    requires node.getLogs(factory, CollectionCreatedTopic, from, to) == Some(logs)
    requires i < |logs| && logs[i].Some? && logs[i].value.CollectionCreated?
    requires Lower(logs[i].value.collection) !in s.collections
    requires forall j :: 0 <= j < i ==> !CreatesCollection(logs[j], Lower(logs[i].value.collection))
    requires FetchAndRun(s, Factory, factory, from, to, node, now).error == None
    ensures var o1, c := FetchAndRun(s, Factory, factory, from, to, node, now), Lower(logs[i].value.collection);
      && (logs[i].value.collectionType == "ERC721" ==> c in Listed(o1.store, "ERC721"))
      && (logs[i].value.collectionType == "ERC1155" ==>
            c in Listed(RunCollections(o1.store, Kind721, Listed(o1.store, "ERC721"), from, to, node, now).store, "ERC1155"))
  {
    var o1 := FetchAndRun(s, Factory, factory, from, to, node, now);
    var c := Lower(logs[i].value.collection);
    FirstCreationDecides(s, logs, node, now, i);
    RunLogsConsistent(s, Factory, logs, node, now);
    ListedExactly(o1.store, "ERC721", c);
    var o2 := RunCollections(o1.store, Kind721, Listed(o1.store, "ERC721"), from, to, node, now);
    TokenPhaseKeepsCollections(o1.store, Kind721, Listed(o1.store, "ERC721"), from, to, node, now);
    assert OrderMatches(o2.store);
    ListedExactly(o2.store, "ERC1155", c);
  }

  // ---------------------------------------------------------------------------
  // The cursor
  // ---------------------------------------------------------------------------

  /**
   * With the cursor unset a tick for block `b` sets it to `b - 1` and
   * touches nothing else; after block 1 it is still unset, so the next tick
   * bootstraps again.
   */
  lemma BootstrapTick(st: Indexer, b: int, node: Node, factory: Address, now: nat, b': int)
    requires st.cursor == 0
    ensures var r := Tick(st, b, node, factory, now);
      && r.state == Indexer(b - 1, st.store) && r.status == Bootstrapped
      && (b == 1 ==> RangeOf(r.state, b') == None)
      && (b != 1 ==> RangeOf(r.state, b') == Some((b, b')))
  {
  }

  /**
   * A running tick advances the cursor to `b` exactly when all three phases
   * complete; when one throws the cursor stays put but the writes made
   * before the throw are kept.
   */
  lemma CursorAdvancesOnlyOnSuccess(st: Indexer, b: int, node: Node, factory: Address, now: nat)
    requires st.cursor != 0
    ensures var r, o := Tick(st, b, node, factory, now), Phases(st.store, st.cursor + 1, b, node, factory, now);
      && r.state.store == o.store
      && (o.error.None? <==> r.status == Indexed)
      && (o.error.None? ==> r.state.cursor == b)
      && (o.error.Some? ==> r.state.cursor == st.cursor && r.status == Abandoned(o.error.value))
  {
  }

  /**
   * Consecutive successful ticks cover adjacent ranges with no block twice;
   * after a failed tick the next one starts from the same block again.
   */
  lemma NextRange(st: Indexer, b: int, node: Node, factory: Address, now: nat, b': int)
    requires st.cursor != 0 && b != 0
    ensures var r := Tick(st, b, node, factory, now);
      && (r.status == Indexed ==> RangeOf(r.state, b') == Some((b + 1, b')))
      && (r.status.Abandoned? ==> RangeOf(r.state, b') == RangeOf(st, b'))
  {
  }

  /**
   * Blocks 10, 11 and 12 as the first three notifications: the first only
   * sets the cursor to 9, the second works on [10, 11]; if it succeeds the
   * third works on [12, 12], and if it throws the third works on [10, 12].
   */
  lemma CursorDisciplineExample(store: Store, node: Node, factory: Address, now: nat)
    ensures var t1 := Tick(Indexer(0, store), 10, node, factory, now);
      var t2 := Tick(t1.state, 11, node, factory, now);
      && t1.state.cursor == 9 && t1.state.store == store
      && RangeOf(t1.state, 11) == Some((10, 11))
      && (t2.status == Indexed ==> t2.state.cursor == 11 && RangeOf(t2.state, 12) == Some((12, 12)))
      && (t2.status.Abandoned? ==> t2.state.cursor == 9 && RangeOf(t2.state, 12) == Some((10, 12)))
  {
  }
}

=== FILE: store.dfy ===
/**
 * The relational mirror of on-chain state: the Collection, Nft, Edition and
 * EditionBalance tables, each keyed by its unique constraint, and the
 * well-formedness the indexer keeps for them.
 */
module Store {
  import opened Wrappers
  import opened Text

  type Address = string

  /** `ethers.ZeroAddress`, already lower case. */
  const ZeroAddress: Address := "0x0000000000000000000000000000000000000000"

  /** Every row the indexer writes is tagged with the local development chain. */
  const ChainId: int := 31337

  /** The unique key (contractAddress, tokenId) of an Nft and of an Edition. */
  datatype TokenKey = TokenKey(contractAddress: Address, tokenId: string)

  /** The unique key (editionId, owner) of an EditionBalance row. */
  datatype BalanceKey = BalanceKey(edition: TokenKey, owner: Address)

  datatype Collection = Collection(
    contractAddress: Address,
    chainId: int,
    standard: string,
    creatorAddress: Address,
    royaltyFee: int,
    name: Option<string>,
    symbol: Option<string>,
    createdAt: nat)

  datatype Nft = Nft(
    contractAddress: Address,
    tokenId: string,
    chainId: int,
    ownerAddress: Address,
    creatorAddress: Address,
    metadataUri: string,
    name: Option<string>,
    description: Option<string>,
    imageUrl: Option<string>,
    createdAt: nat)

  datatype Edition = Edition(
    contractAddress: Address,
    tokenId: string,
    chainId: int,
    creatorAddress: Address,
    totalSupply: int,
    metadataUri: string,
    createdAt: nat)

  /**
   * The four tables. `collectionOrder` is the order in which collection rows
   * were inserted, the order an unordered `findMany` hands them back in.
   */
  datatype Store = Store(
    collections: map<Address, Collection>,
    collectionOrder: seq<Address>,
    nfts: map<TokenKey, Nft>,
    editions: map<TokenKey, Edition>,
    balances: map<BalanceKey, int>)

  const Empty: Store := Store(map[], [], map[], map[], map[])

  /** `collectionOrder` lists every collection key exactly once. */
  ghost predicate OrderMatches(s: Store) {
    && (forall i, j :: 0 <= i < j < |s.collectionOrder| ==> s.collectionOrder[i] != s.collectionOrder[j])
    && (forall a :: a in s.collectionOrder <==> a in s.collections)
  }

  /** Each row carries the key it is stored under. */
  ghost predicate RowsMatchKeys(s: Store) {
    && (forall a :: a in s.collections ==> s.collections[a].contractAddress == a)
    && (forall k :: k in s.nfts ==>
          s.nfts[k].contractAddress == k.contractAddress && s.nfts[k].tokenId == k.tokenId)
    && (forall k :: k in s.editions ==>
          s.editions[k].contractAddress == k.contractAddress && s.editions[k].tokenId == k.tokenId)
  }

  /** No token, edition or balance row refers to a row that is not there. */
  ghost predicate ForeignKeys(s: Store) {
    && (forall k :: k in s.nfts ==> k.contractAddress in s.collections)
    && (forall k :: k in s.editions ==> k.contractAddress in s.collections)
    && (forall b :: b in s.balances ==> b.edition in s.editions)
  }

  /** Every stored address is in lower case. */
  ghost predicate Lowercase(s: Store) {
    && (forall a :: a in s.collections ==> IsLower(a) && IsLower(s.collections[a].creatorAddress))
    && (forall k :: k in s.nfts ==> IsLower(s.nfts[k].ownerAddress) && IsLower(s.nfts[k].creatorAddress))
    && (forall k :: k in s.editions ==> IsLower(s.editions[k].creatorAddress))
    && (forall b :: b in s.balances ==> IsLower(b.owner))
  }

  ghost predicate Consistent(s: Store) {
    OrderMatches(s) && RowsMatchKeys(s) && ForeignKeys(s) && Lowercase(s)
  }

  lemma EmptyConsistent()
    ensures Consistent(Empty)
  {
  }

  /**
   * `findMany({ where: { standard } })` on the collection table: the
   * addresses of the collections of that standard, in insertion order.
   */
  function Listed(s: Store, standard: string): (r: seq<Address>)
    ensures forall a :: a in r ==> a in s.collections && s.collections[a].standard == standard
  {
    ListedFrom(s.collectionOrder, s.collections, standard)
  }

  function ListedFrom(order: seq<Address>, rows: map<Address, Collection>, standard: string): (r: seq<Address>)
    ensures forall a :: a in r ==> a in order && a in rows && rows[a].standard == standard
  {
    if order == [] then []
    else
      var rest := ListedFrom(order[1..], rows, standard);
      if order[0] in rows && rows[order[0]].standard == standard then [order[0]] + rest else rest
  }

  lemma {:induction false} ListedFromComplete(order: seq<Address>, rows: map<Address, Collection>, standard: string, a: Address)
    requires a in order && a in rows && rows[a].standard == standard
    ensures a in ListedFrom(order, rows, standard)
  {
    if order[0] != a {
      ListedFromComplete(order[1..], rows, standard, a);
    }
  }

  /** In a consistent store, `Listed` names exactly the collections of that standard. */
  lemma ListedExactly(s: Store, standard: string, a: Address)
    requires OrderMatches(s)
    ensures a in Listed(s, standard) <==> a in s.collections && s.collections[a].standard == standard
  {
    if a in s.collections && s.collections[a].standard == standard {
      ListedFromComplete(s.collectionOrder, s.collections, standard, a);
    }
  }
}

=== FILE: text.dfy ===
/**
 * String helpers the services rely on: ASCII lower-casing (`toLowerCase`
 * on addresses), JavaScript `trim`, `split` on one separator character,
 * the decimal rendering of a token id (`BigInt.toString()`), the UTF-16
 * length that string-length validators measure, and `|| undefined`.
 */
module Text {
  import opened Wrappers

  // ---------------------------------------------------------------------------
  // Lower-casing
  // ---------------------------------------------------------------------------

  function LowerChar(c: char): char {
    if 'A' <= c <= 'Z' then (c as int + 32) as char else c
  }

  /** `s.toLowerCase()`, restricted to the ASCII letters. */
  function Lower(s: string): (r: string)
    ensures |r| == |s|
    ensures forall i :: 0 <= i < |s| ==> r[i] == LowerChar(s[i])
  {
    if s == [] then [] else [LowerChar(s[0])] + Lower(s[1..])
  }

  /** A string that lower-casing leaves alone. */
  predicate IsLower(s: string) {
    forall i :: 0 <= i < |s| ==> !('A' <= s[i] <= 'Z')
  }

  lemma LowerIsLower(s: string)
    ensures IsLower(Lower(s))
  {
  }

  /** Lower-casing is idempotent: a second `toLowerCase` changes nothing. */
  lemma LowerIdempotent(s: string)
    ensures Lower(Lower(s)) == Lower(s)
  {
    assert forall i :: 0 <= i < |s| ==> LowerChar(LowerChar(s[i])) == LowerChar(s[i]);
  }

  lemma LowerOfLower(s: string)
    requires IsLower(s)
    ensures Lower(s) == s
  {
  }

  // ---------------------------------------------------------------------------
  // Counting, splitting and joining on one separator character
  // ---------------------------------------------------------------------------

  function Count(s: string, c: char): (n: nat)
    ensures n <= |s|
    ensures n == 0 <==> c !in s
  {
    if s == [] then 0 else (if s[0] == c then 1 else 0) + Count(s[1..], c)
  }

  /** The pieces joined back with the separator between each two. */
  function Join(parts: seq<string>, sep: char): string {
    if parts == [] then []
    else if |parts| == 1 then parts[0]
    else parts[0] + [sep] + Join(parts[1..], sep)
  }

  /**
   * `s.split(sep)` for a one-character separator: one piece more than there
   * are separators, no piece holds the separator, and joining the pieces
   * back gives `s` again.
   */
  function Split(s: string, sep: char): (parts: seq<string>)
    ensures |parts| == Count(s, sep) + 1
    ensures forall k :: 0 <= k < |parts| ==> sep !in parts[k]
    ensures Join(parts, sep) == s
  {
    if s == [] then [[]]
    else
      var rest := Split(s[1..], sep);
      if s[0] == sep then
        [[]] + rest
      else
        assert s == [s[0]] + s[1..];
        [[s[0]] + rest[0]] + rest[1..]
  }

  /** JavaScript `v || undefined` on a nullable string: null and "" both become absent. */
  function OrUndefined(v: Option<string>): (r: Option<string>)
    ensures r.Some? <==> v.Some? && v.value != ""
    ensures r.Some? ==> r == v
  {
    if v.Some? && v.value != "" then v else None
  }

  // ---------------------------------------------------------------------------
  // Trimming
  // ---------------------------------------------------------------------------

  /** The characters JavaScript's `trim` removes: WhiteSpace and LineTerminator. */
  predicate IsSpace(c: char) {
    c == ' ' || c == '\t' || c == '\n' || c == '\r' || c == '\U{0B}' || c == '\U{0C}'
    || c == '\U{A0}' || c == '\U{1680}' || ('\U{2000}' <= c <= '\U{200A}')
    || c == '\U{2028}' || c == '\U{2029}' || c == '\U{202F}' || c == '\U{205F}'
    || c == '\U{3000}' || c == '\U{FEFF}'
  }

  /** Leading white space removed: a suffix of `s` whose dropped part is all white space. */
  function TrimStart(s: string): (r: string)
    ensures |r| <= |s| && r == s[|s| - |r|..]
    ensures forall k :: 0 <= k < |s| - |r| ==> IsSpace(s[k])
    ensures r != [] ==> !IsSpace(r[0])
  {
    if s != [] && IsSpace(s[0]) then TrimStart(s[1..]) else s
  }

  /** Trailing white space removed: a prefix of `s` whose dropped part is all white space. */
  function TrimEnd(s: string): (r: string)
    ensures |r| <= |s| && r == s[..|r|]
    ensures forall k :: |r| <= k < |s| ==> IsSpace(s[k])
    ensures r != [] ==> !IsSpace(r[|r| - 1])
  {
    if s != [] && IsSpace(s[|s| - 1]) then TrimEnd(s[..|s| - 1]) else s
  }

  /** `s.trim()`: neither end of the result is white space. */
  function Trim(s: string): (r: string)
    ensures r != [] ==> !IsSpace(r[0]) && !IsSpace(r[|r| - 1])
  {
    TrimEnd(TrimStart(s))
  }

  /**
   * What `trim` keeps is one slice of the input, and all it drops on either
   * side is white space.
   */
  lemma TrimSlice(s: string)
    ensures var i, r := |s| - |TrimStart(s)|, Trim(s);
      && 0 <= i <= |s| - |r| && r == s[i..i + |r|]
      && (forall k :: 0 <= k < i ==> IsSpace(s[k]))
      && (forall k :: i + |r| <= k < |s| ==> IsSpace(s[k]))
  {
    var a := TrimStart(s);
    var r := TrimEnd(a);
    var i := |s| - |a|;
    assert a == s[i..];
    forall k | i + |r| <= k < |s|
      ensures IsSpace(s[k])
    {
      assert s[k] == a[k - i];
    }
  }

  lemma {:induction false} TrimStartNoop(s: string)
    requires s != [] ==> !IsSpace(s[0])
    ensures TrimStart(s) == s
  {
  }

  lemma {:induction false} TrimEndNoop(s: string)
    requires s != [] ==> !IsSpace(s[|s| - 1])
    ensures TrimEnd(s) == s
  {
  }

  // ---------------------------------------------------------------------------
  // Decimal rendering of token ids
  // ---------------------------------------------------------------------------

  function Digit(d: nat): char
    requires d < 10
  {
    ['0', '1', '2', '3', '4', '5', '6', '7', '8', '9'][d]
  }

  predicate IsDigit(c: char) {
    '0' <= c <= '9'
  }

  function DigitValue(c: char): nat
    requires IsDigit(c)
  {
    (c as int) - ('0' as int)
  }

  /** `n.toString()` for a non-negative integer: decimal digits, most significant first. */
  function Decimal(n: nat): (r: string)
    ensures |r| >= 1
    ensures forall k :: 0 <= k < |r| ==> IsDigit(r[k])
    ensures |r| > 1 ==> r[0] != '0'
  {
    if n < 10 then [Digit(n)] else Decimal(n / 10) + [Digit(n % 10)]
  }

  /** Reads a string of decimal digits back as a number. */
  function ParseDecimal(s: string): nat
    requires forall k :: 0 <= k < |s| ==> IsDigit(s[k])
  {
    if s == [] then 0 else ParseDecimal(s[..|s| - 1]) * 10 + DigitValue(s[|s| - 1])
  }

  /** Rendering then reading a token id gives it back. */
  lemma {:induction false} DecimalRoundTrip(n: nat)
    ensures ParseDecimal(Decimal(n)) == n
  {
    if n >= 10 {
      DecimalRoundTrip(n / 10);
      var r := Decimal(n);
      assert r[..|r| - 1] == Decimal(n / 10);
    }
  }

  /** Distinct token ids give distinct row keys. */
  lemma DecimalInjective(m: nat, n: nat)
    requires Decimal(m) == Decimal(n)
    ensures m == n
  {
    DecimalRoundTrip(m);
    DecimalRoundTrip(n);
  }

  // ---------------------------------------------------------------------------
  // JavaScript string length
  // ---------------------------------------------------------------------------

  /** `s.length`: UTF-16 code units, two for a character outside the basic plane. */
  function JsLength(s: string): (n: nat)
    ensures |s| <= n <= 2 * |s|
  {
    if s == [] then 0 else (if s[0] as int > 0xFFFF then 2 else 1) + JsLength(s[1..])
  }

  lemma {:induction false} JsLengthAscii(s: string)
    requires forall k :: 0 <= k < |s| ==> s[k] as int < 128
    ensures JsLength(s) == |s|
  {
    if s != [] {
      JsLengthAscii(s[1..]);
    }
  }
}

=== FILE: users.dfy ===
/**
 * The user table behind sign-in and profiles: one row per wallet address,
 * holding the nonce of the pending sign-in, a profile and a role. The
 * table is a sequence of rows in insertion order, so that `findFirst`
 * (the first row that matches) is determined; ids come from a counter.
 */
module Users {
  import opened Wrappers
  import opened Text
  import opened Ordering

  type UserId = nat

  datatype User = User(
    id: UserId,
    walletAddress: string,
    nonce: Option<string>,
    username: Option<string>,
    bio: Option<string>,
    avatar: Option<string>,
    role: string,
    createdAt: nat)

  /** The rows in insertion order and the next id to hand out. */
  datatype Table = Table(rows: seq<User>, nextId: UserId)

  /**
   * `NotFound` and `Conflict` are the service's own HTTP exceptions;
   * `RecordNotFound` is the store's error for an update of a missing row.
   */
  datatype UserError = NotFound(message: string) | Conflict(message: string) | RecordNotFound

  /** One field of a profile update: absent, `null`, or a new value. */
  datatype Patch = Keep | Clear | Put(value: string)

  datatype ProfileUpdate = ProfileUpdate(username: Patch, bio: Patch, avatar: Patch)

  /** Ids are distinct and below the counter; wallet addresses are distinct. */
  ghost predicate Valid(t: Table) {
    && (forall i, j :: 0 <= i < j < |t.rows| ==> t.rows[i].id != t.rows[j].id)
    && (forall i :: 0 <= i < |t.rows| ==> t.rows[i].id < t.nextId)
    && (forall i, j :: 0 <= i < j < |t.rows| ==> t.rows[i].walletAddress != t.rows[j].walletAddress)
  }

  function AddressIndex(rows: seq<User>, address: string): Option<nat> {
    FirstIndex(rows, (u: User) => u.walletAddress == Lower(address))
  }

  function IdIndex(rows: seq<User>, id: UserId): Option<nat> {
    FirstIndex(rows, (u: User) => u.id == id)
  }

  /** `findByAddress`: the row stored under the lower-cased address, if any. */
  function ByAddress(t: Table, address: string): (r: Option<User>)
    ensures r.Some? ==> r.value in t.rows && r.value.walletAddress == Lower(address)
    ensures r.None? ==> forall u :: u in t.rows ==> u.walletAddress != Lower(address)
  {
    match AddressIndex(t.rows, address)
    case None => None
    case Some(i) => Some(t.rows[i])
  }

  /** The username a new user gets: the first 8 characters of the lower-cased address. */
  function DefaultUsername(address: string): (r: string)
    ensures |r| == if |address| < 8 then |address| else 8
    ensures r <= address
  {
    if |address| < 8 then address else address[..8]
  }

  /**
   * `upsertNonce`: store `nonce` on the user of the lower-cased address,
   * or create that user with the nonce, the default username and `role`.
   */
  function Upserted(t: Table, address: string, nonce: string, role: string, now: nat): (Table, User) {
    var la := Lower(address);
    match AddressIndex(t.rows, address)
    case Some(i) =>
      var u := t.rows[i].(nonce := Some(nonce));
      (Table(t.rows[i := u], t.nextId), u)
    case None =>
      var u := User(t.nextId, la, Some(nonce), Some(DefaultUsername(la)), None, None, role, now);
      (Table(t.rows + [u], t.nextId + 1), u)
  }

  /** `updateNonce`: replace the nonce of the user with id `id`. */
  function NonceUpdated(t: Table, id: UserId, nonce: string): Result<(Table, User), UserError> {
    match IdIndex(t.rows, id)
    case None => Err(RecordNotFound)
    case Some(i) =>
      var u := t.rows[i].(nonce := Some(nonce));
      Ok((t.(rows := t.rows[i := u]), u))
  }

  /** `findById`. */
  function ById(t: Table, id: UserId): (r: Result<User, UserError>)
    ensures r.Ok? ==> r.value in t.rows && r.value.id == id
    ensures r.Err? ==> r.error == NotFound("User not found") && forall u :: u in t.rows ==> u.id != id
  {
    match IdIndex(t.rows, id)
    case None => Err(NotFound("User not found"))
    case Some(i) => Ok(t.rows[i])
  }

  function Patched(field: Option<string>, p: Patch): Option<string> {
    match p
    case Keep => field
    case Clear => None
    case Put(v) => Some(v)
  }

  /**
   * Whether the username check rejects the update: a non-empty requested
   * username whose first holder is another user.
   */
  function UsernameTaken(t: Table, id: UserId, p: Patch): bool {
    p.Put? && p.value != "" &&
    match FirstIndex(t.rows, (u: User) => u.username == Some(p.value))
    case None => false
    case Some(i) => t.rows[i].id != id
  }

  /** `updateProfile`: the username check, then the update of the given fields. */
  function ProfileUpdated(t: Table, id: UserId, upd: ProfileUpdate): Result<(Table, User), UserError> {
    if UsernameTaken(t, id, upd.username) then Err(Conflict("Username already exists"))
    else
      match IdIndex(t.rows, id)
      case None => Err(RecordNotFound)
      case Some(i) =>
        var old_ := t.rows[i];
        var u := old_.(username := Patched(old_.username, upd.username),
                       bio := Patched(old_.bio, upd.bio),
                       avatar := Patched(old_.avatar, upd.avatar));
        Ok((t.(rows := t.rows[i := u]), u))
  }

  // ---------------------------------------------------------------------------
  // Properties
  // ---------------------------------------------------------------------------

  /** The lookup ignores the case of its input. */
  lemma ByAddressIgnoresCase(t: Table, a: string, b: string)
    requires Lower(a) == Lower(b)
    ensures ByAddress(t, a) == ByAddress(t, b)
    ensures ByAddress(t, Lower(a)) == ByAddress(t, a)
  {
    LowerIdempotent(a);
  }

  /** In a valid table a row's own address finds that row. */
  lemma {:induction false} ByAddressFindsRow(t: Table, i: nat)
    requires Valid(t) && i < |t.rows| && IsLower(t.rows[i].walletAddress)
    ensures ByAddress(t, t.rows[i].walletAddress) == Some(t.rows[i])
  {
    LowerOfLower(t.rows[i].walletAddress);
  }

  /** In a valid table a row's own id finds that row. */
  lemma IdIndexFindsRow(t: Table, i: nat)
    requires Valid(t) && i < |t.rows|
    ensures IdIndex(t.rows, t.rows[i].id) == Some(i)
  {
  }

  /**
   * Upserting the nonce of a known address changes that user's nonce and
   * nothing else; for a new address it appends a user with the lower-cased
   * address, the nonce, the default username and the next id.
   */
  lemma UpsertedEffect(t: Table, address: string, nonce: string, role: string, now: nat)
    requires Valid(t)
    ensures var (t', u) := Upserted(t, address, nonce, role, now);
      && u.nonce == Some(nonce) && u.walletAddress == Lower(address)
      && (ByAddress(t, address).Some? ==>
            && |t'.rows| == |t.rows| && t'.nextId == t.nextId
            && u == ByAddress(t, address).value.(nonce := Some(nonce))
            && (forall k :: 0 <= k < |t.rows| ==>
                  t'.rows[k] == if t.rows[k].walletAddress == Lower(address) then u else t.rows[k]))
      && (ByAddress(t, address).None? ==>
            && t'.rows == t.rows + [u] && t'.nextId == t.nextId + 1
            && u.id == t.nextId && u.role == role
            && u.username == Some(DefaultUsername(Lower(address)))
            && u.bio == None && u.avatar == None)
  {
  }

  /** After an upsert the address finds the user just written, with the new nonce. */
  lemma {:induction false} UpsertedThenFound(t: Table, address: string, nonce: string, role: string, now: nat)
    ensures var (t', u) := Upserted(t, address, nonce, role, now);
      ByAddress(t', address) == Some(u) && u.nonce == Some(nonce)
  {
    var (t', u) := Upserted(t, address, nonce, role, now);
    match AddressIndex(t.rows, address)
    case Some(i) =>
      assert t'.rows[i] == u;
      assert forall j :: 0 <= j < i ==> t'.rows[j] == t.rows[j];
    case None =>
      assert t'.rows[|t.rows|] == u;
      assert forall j :: 0 <= j < |t.rows| ==> t'.rows[j] == t.rows[j];
  }

  lemma UpsertedValid(t: Table, address: string, nonce: string, role: string, now: nat)
    requires Valid(t)
    ensures Valid(Upserted(t, address, nonce, role, now).0)
  {
  }

  /**
   * `updateNonce` on a present id changes only that user's nonce; on an
   * absent id it fails with the store's error.
   */
  lemma NonceUpdatedEffect(t: Table, id: UserId, nonce: string)
    requires Valid(t)
    ensures var r := NonceUpdated(t, id, nonce);
      && (ById(t, id).Err? <==> r == Err(RecordNotFound))
      && (r.Ok? ==>
            && r.value.1 == ById(t, id).value.(nonce := Some(nonce))
            && r.value.0.nextId == t.nextId && |r.value.0.rows| == |t.rows|
            && (forall k :: 0 <= k < |t.rows| ==>
                  r.value.0.rows[k] == if t.rows[k].id == id then r.value.1 else t.rows[k]))
      && (r.Ok? ==> Valid(r.value.0))
  {
  }

  /** With an update of the nonce in place, the address finds the rotated row. */
  lemma {:induction false} NonceUpdatedThenFound(t: Table, address: string, nonce: string)
    requires Valid(t) && ByAddress(t, address).Some?
    ensures var r := NonceUpdated(t, ByAddress(t, address).value.id, nonce);
      r.Ok? && ByAddress(r.value.0, address) == Some(ByAddress(t, address).value.(nonce := Some(nonce)))
  {
    var i := AddressIndex(t.rows, address).value;
    IdIndexFindsRow(t, i);
    var t' := NonceUpdated(t, t.rows[i].id, nonce).value.0;
    assert t'.rows[i] == t.rows[i].(nonce := Some(nonce));
    assert forall j :: 0 <= j < i ==> t'.rows[j] == t.rows[j];
    var r := AddressIndex(t'.rows, address);
    assert r.Some? && r.value <= i;
    assert r.value == i;
  }

  /**
   * `updateProfile` fails with Conflict exactly when a non-empty username
   * is requested and the first user holding it is someone else; keeping
   * one's own username passes when no earlier user holds it; otherwise an
   * existing user gets the given fields and keeps the rest, in place: the
   * other rows and the id counter stay as they were.
   */
  lemma ProfileUpdatedEffect(t: Table, id: UserId, upd: ProfileUpdate)
    requires Valid(t)
    ensures var r := ProfileUpdated(t, id, upd);
      && (r == Err(Conflict("Username already exists")) <==>
            upd.username.Put? && upd.username.value != "" &&
            exists i :: 0 <= i < |t.rows| && t.rows[i].username == Some(upd.username.value) && t.rows[i].id != id &&
              forall j :: 0 <= j < i ==> t.rows[j].username != Some(upd.username.value))
      && (r.Ok? ==>
            var u := ById(t, id).value;
            && ById(t, id).Ok?
            && r.value.1 == u.(username := Patched(u.username, upd.username),
                               bio := Patched(u.bio, upd.bio), avatar := Patched(u.avatar, upd.avatar))
            && r.value.1.id == id && r.value.1.walletAddress == u.walletAddress
            && r.value.1.nonce == u.nonce && r.value.1.role == u.role
            && r.value.0.nextId == t.nextId && |r.value.0.rows| == |t.rows|
            && (forall k :: 0 <= k < |t.rows| ==>
                  r.value.0.rows[k] == if t.rows[k].id == id then r.value.1 else t.rows[k])
            && Valid(r.value.0))
      && (!UsernameTaken(t, id, upd.username) && ById(t, id).Err? ==> r == Err(RecordNotFound))
  {
    ProfileUpdatedInPlace(t, id, upd);
    UsernameTakenExactly(t, id, upd.username);
  }

  /**
   * The username check refuses exactly a non-empty requested name whose
   * first holder in storage order is another user.
   */
  lemma UsernameTakenExactly(t: Table, id: UserId, p: Patch)
    ensures UsernameTaken(t, id, p) <==>
      p.Put? && p.value != "" &&
      exists i :: 0 <= i < |t.rows| && t.rows[i].username == Some(p.value) && t.rows[i].id != id &&
        forall j :: 0 <= j < i ==> t.rows[j].username != Some(p.value)
  {
    if p.Put? && p.value != "" {
      var pred := (u: User) => u.username == Some(p.value);
      match FirstIndex(t.rows, pred)
      case None =>
      case Some(i) =>
        if t.rows[i].id != id {
          assert 0 <= i < |t.rows| && t.rows[i].username == Some(p.value) && t.rows[i].id != id &&
            forall j :: 0 <= j < i ==> t.rows[j].username != Some(p.value);
        } else {
          forall i' | 0 <= i' < |t.rows| && t.rows[i'].username == Some(p.value) &&
                      forall j :: 0 <= j < i' ==> t.rows[j].username != Some(p.value)
            ensures t.rows[i'].id == id
          {
            assert !(i < i');
            assert !(i' < i);
          }
        }
    }
  }

  /** A successful update rewrites the user's row in place and no other. */
  lemma ProfileUpdatedInPlace(t: Table, id: UserId, upd: ProfileUpdate)
    requires Valid(t)
    ensures var r := ProfileUpdated(t, id, upd);
      r.Ok? ==>
        var u := ById(t, id).value;
        && ById(t, id).Ok?
        && r.value.1 == u.(username := Patched(u.username, upd.username),
                           bio := Patched(u.bio, upd.bio), avatar := Patched(u.avatar, upd.avatar))
        && r.value.0.nextId == t.nextId && |r.value.0.rows| == |t.rows|
        && (forall k :: 0 <= k < |t.rows| ==>
              r.value.0.rows[k] == if t.rows[k].id == id then r.value.1 else t.rows[k])
  {
    var r := ProfileUpdated(t, id, upd);
    if r.Ok? {
      forall k | 0 <= k < |t.rows|
        ensures r.value.0.rows[k] == if t.rows[k].id == id then r.value.1 else t.rows[k]
      {
        IdIndexFindsRow(t, k);
      }
    }
  }

  /** Keeping one's own username is accepted when no earlier user holds it. */
  lemma KeepOwnUsername(t: Table, i: nat, upd: ProfileUpdate)
    requires Valid(t) && i < |t.rows| && t.rows[i].username.Some?
    requires upd.username == Put(t.rows[i].username.value)
    requires forall j :: 0 <= j < i ==> t.rows[j].username != t.rows[i].username
    ensures ProfileUpdated(t, t.rows[i].id, upd).Ok?
  {
    IdIndexFindsRow(t, i);
  }

  /** If usernames are distinct before a successful update, they are distinct after it. */
  lemma {:induction false} ProfileUpdatedKeepsUsernamesDistinct(t: Table, id: UserId, upd: ProfileUpdate)
    requires Valid(t)
    requires forall i, j :: 0 <= i < j < |t.rows| && t.rows[i].username.Some? ==> t.rows[i].username != t.rows[j].username
    requires upd.username != Put("")
    requires ProfileUpdated(t, id, upd).Ok?
    ensures var t' := ProfileUpdated(t, id, upd).value.0;
      forall i, j :: 0 <= i < j < |t'.rows| && t'.rows[i].username.Some? ==> t'.rows[i].username != t'.rows[j].username
  {
    var k := IdIndex(t.rows, id).value;
    var t' := ProfileUpdated(t, id, upd).value.0;
    assert forall i :: 0 <= i < |t.rows| && i != k ==> t'.rows[i] == t.rows[i];
    if upd.username.Put? {
      var name := upd.username.value;
      var pred := (u: User) => u.username == Some(name);
      match FirstIndex(t.rows, pred)
      case None =>
      case Some(h) =>
        assert t.rows[h].id == id;
        assert h == k;
    }
  }

  /**
   * Two new addresses that agree in their first 8 characters get the same
   * default username; the second of them is then refused its own username,
   * because the check only looks at the first user holding it.
   */
  lemma {:induction false} DefaultUsernameShared(t: Table, a1: string, a2: string, role: string, now: nat)
    requires Valid(t)
    requires ByAddress(t, a1).None? && ByAddress(t, a2).None? && Lower(a1) != Lower(a2)
    requires |a1| >= 8 && |a2| >= 8
    requires forall u :: u in t.rows ==> u.username != Some(DefaultUsername(Lower(a1)))
    requires Lower(a1)[..8] == Lower(a2)[..8]
    ensures var (t1, u1) := Upserted(t, a1, "n1", role, now);
      var (t2, u2) := Upserted(t1, a2, "n2", role, now);
      && u1.username == u2.username
      && ProfileUpdated(t2, u2.id, ProfileUpdate(Put(u2.username.value), Keep, Keep))
         == Err(Conflict("Username already exists"))
  {
    var (t1, u1) := Upserted(t, a1, "n1", role, now);
    assert t1.rows == t.rows + [u1];
    UpsertedValid(t, a1, "n1", role, now);
    assert t1.rows[|t.rows|] == u1;
    var name := DefaultUsername(Lower(a1));
    assert u1.walletAddress != Lower(a2);
    assert forall w :: w in t1.rows ==> w.walletAddress != Lower(a2);
    var (t2, u2) := Upserted(t1, a2, "n2", role, now);
    assert t2.rows == t1.rows + [u2];
    assert u2.username == Some(DefaultUsername(Lower(a2)));
    assert DefaultUsername(Lower(a2)) == name;
    assert u2.id == t1.nextId && u1.id < t1.nextId;
    var pred := (u: User) => u.username == Some(name);
    assert t2.rows[|t.rows|] == u1;
    assert forall j :: 0 <= j < |t.rows| ==> t2.rows[j] == t.rows[j];
    var f := FirstIndex(t2.rows, pred);
    assert f.Some? && f.value <= |t.rows|;
    assert f.value == |t.rows|;
  }

  // ---------------------------------------------------------------------------
  // The service
  // ---------------------------------------------------------------------------

  class UsersService {
    var rows: seq<User>
    var nextId: UserId
    /** The role the schema gives a newly created user. */
    const defaultRole: string

    function Snapshot(): Table
      reads this
    {
      Table(rows, nextId)
    }

    constructor(role: string)
      ensures Snapshot() == Table([], 0) && defaultRole == role && Valid(Snapshot())
    {
      rows := [];
      nextId := 0;
      defaultRole := role;
    }

    method FindByAddress(walletAddress: string) returns (user: Option<User>)
      ensures user == ByAddress(Snapshot(), walletAddress)
    {
      var la := Lower(walletAddress);
      var i := FirstIndex(rows, (u: User) => u.walletAddress == la);
      user := if i.Some? then Some(rows[i.value]) else None;
    }

    method UpsertNonce(walletAddress: string, nonce: string, now: nat) returns (user: User)
      requires Valid(Snapshot())
      modifies this
      ensures (Snapshot(), user) == Upserted(old(Snapshot()), walletAddress, nonce, defaultRole, now)
      ensures Valid(Snapshot())
    {
      UpsertedValid(Snapshot(), walletAddress, nonce, defaultRole, now);
      var lowerAddress := Lower(walletAddress);
      var i := FirstIndex(rows, (u: User) => u.walletAddress == lowerAddress);
      if i.Some? {
        user := rows[i.value].(nonce := Some(nonce));
        rows := rows[i.value := user];
      } else {
        user := User(nextId, lowerAddress, Some(nonce), Some(DefaultUsername(lowerAddress)), None, None, defaultRole, now);
        rows := rows + [user];
        nextId := nextId + 1;
      }
    }

    method UpdateNonce(userId: UserId, newNonce: string) returns (r: Result<User, UserError>)
      requires Valid(Snapshot())
      modifies this
      ensures var e := NonceUpdated(old(Snapshot()), userId, newNonce);
        && (e.Ok? ==> r == Ok(e.value.1) && Snapshot() == e.value.0)
        && (e.Err? ==> r == Err(e.error) && Snapshot() == old(Snapshot()))
      ensures Valid(Snapshot())
    {
      NonceUpdatedEffect(Snapshot(), userId, newNonce);
      var i := FirstIndex(rows, (u: User) => u.id == userId);
      if i.None? {
        return Err(RecordNotFound);
      }
      var user := rows[i.value].(nonce := Some(newNonce));
      rows := rows[i.value := user];
      r := Ok(user);
    }

    method FindById(id: UserId) returns (r: Result<User, UserError>)
      ensures r == ById(Snapshot(), id)
    {
      var i := FirstIndex(rows, (u: User) => u.id == id);
      if i.None? {
        return Err(NotFound("User not found"));
      }
      r := Ok(rows[i.value]);
    }

    method UpdateProfile(id: UserId, dto: ProfileUpdate) returns (r: Result<User, UserError>)
      requires Valid(Snapshot())
      modifies this
      ensures var e := ProfileUpdated(old(Snapshot()), id, dto);
        && (e.Ok? ==> r == Ok(e.value.1) && Snapshot() == e.value.0)
        && (e.Err? ==> r == Err(e.error) && Snapshot() == old(Snapshot()))
      ensures Valid(Snapshot())
    {
      ProfileUpdatedEffect(Snapshot(), id, dto);
      if dto.username.Put? && dto.username.value != "" {
        var name := dto.username.value;
        var exists_ := FirstIndex(rows, (u: User) => u.username == Some(name));
        if exists_.Some? && rows[exists_.value].id != id {
          return Err(Conflict("Username already exists"));
        }
      }
      var i := FirstIndex(rows, (u: User) => u.id == id);
      if i.None? {
        return Err(RecordNotFound);
      }
      var current := rows[i.value];
      var user := current.(username := Patched(current.username, dto.username),
                           bio := Patched(current.bio, dto.bio),
                           avatar := Patched(current.avatar, dto.avatar));
      rows := rows[i.value := user];
      r := Ok(user);
    }
  }
}

=== FILE: wrappers.dfy ===
/** Option and Result, the two failure-carrying shapes used across the model. */
module Wrappers {

  datatype Option<+T> = None | Some(value: T) {
    function GetOr(default: T): T {
      match this
      case Some(v) => v
      case None => default
    }
  }

  datatype Result<+T, +E> = Ok(value: T) | Err(error: E)
}
